=== FILE: README.md ===
# Samarium shell host: string handling, modelled in Dafny

Samarium is a console host for command plugins. This project models the host's
pure string handling and proves properties of it:

- **the read loop's line planner.** A console line is trimmed and split at every
  `&&`. A segment that starts with `??` is dispatched asynchronously. The
  segment's first token is the command tag. Every other token that differs from
  the tag is an argument.
- **the startup-argument table and loop.** Each process argument is cut at its
  first `=`. The *first* table entry whose text starts with that key selects the handler.
- **the three argument handlers.**
  - `--no-plugins` turns plugin auto-loading off.
  - `--logdir=` sets the log directory.
  - `--exec=` queues startup commands.
- **the plugin list files.** `plugins.ignore` and `plugins.include` are read line
  by line, with `#` comments. `$(plugin_dir)` is expanded, and the model produces
  the two `load` requests of boot.
- **the built-in command table.** This is the list of built-in commands with their
  tags and documented arguments.

Modules:

| module | file | contents |
|---|---|---|
| `Wrappers` | wrappers.dfy | `Option` |
| `Seqs` | seqs.dfy | LINQ `Where`, removal of a value, `FirstOrDefault` as a position, counting, repetition |
| `Text` | text.dfy | the .NET string operations the host uses: `Trim`, `TrimStart(char)`, `StartsWith`, `IndexOf`, `Split`, `Replace`, `Substring(IndexOf(c) + 1)` |
| `CommandChain` | chain.dfy | the line planner and the order of execution it implies |
| `SystemCommands` | catalog.dfy | the built-in command table |
| `RuntimeOptions` | options.dfy | the static option properties, the process command line, the outcome of argument handling |
| `ArgsImpl` | argsimpl.dfy | `SetNoPlugins`, `SetLogDir`, `SetAutoExec` |
| `StartupArgs` | startup.dfy | the `Arguments` table and the argument loop at the top of `Main` |
| `PluginLists` | pluginlists.dfy | `LoadPlugins` |
| `BootSequence` | boot.dfy | the plugin step of `Main`, as written and with `AutoLoadPlugins` read |

Some modelling choices:

- The plugin framework's tokenizer (`SplitCommandLine`) is the parameter `tokenize`.
- Its quote stripper (`TrimMatchingQuotes`) is the parameter `trimQuotes`. In `StartupArgs` it travels in the `Host` record, together with the bodies of `SetConfigDir` and `SetPluginDir`, which are not part of this model.
- The file system is a parameter: a file's text by path, the DLL listing of a directory, and `File.Exists`. So is the result count of the first `load`. `BootSequence` reads the list files and DLLs from the plugins directory that argument handling leaves behind.
- A C# `null` is an `Option` `None`.
- An exception that ends the process is the `Crashed` outcome.
- `Environment.Exit(0)` is the `Exited(0)` outcome.

### Behaviour of the code worth knowing

- **`a && ??b` runs synchronously.** The loop's cheat sheet (`Samarium.cs`, lines 231-239) says a `??` prefix means asynchronous execution. But `Regex.Split` keeps the space after `&&`. The segment ` ??b` then does not start with `??`, so it is dispatched synchronously (see Findings).
- **A quoted `&&` is split too.** The cheat sheet describes `""` as grouping several words into one argument. The chain regular expression ignores quotes, though, so every `&&` splits the line, quoted or not (`CommandChain.SegmentsAreLeftmostSplit`).
- **A bad segment does not undo the earlier ones.** Segments are interpreted one by one. A segment without tokens throws only after the earlier segments were dispatched, and the join of the launched calls is then skipped (`CommandChain.PlanSegments`, `CommandChain.LineStepsFollowSegments`).

## Model

| member | source | states |
|---|---|---|
| Seqs.Filter | Samarium/Samarium/Source/Classes/Samarium.cs:244 | `Where` keeps exactly the elements that satisfy the predicate, and never more than it was given |
| Seqs.FilterConcat | Samarium/Samarium/Source/Classes/Samarium.cs:244 | `Where` works element by element, so the survivors keep their order |
| Seqs.RemoveAll | Samarium/Samarium/Source/Classes/Samarium.cs:249 | `tmp.Where(x => x != tmp[0])` removes every copy of the value and keeps every other element with its multiplicity |
| Seqs.RemoveAllIsWhere | Samarium/Samarium/Source/Classes/Samarium.cs:249 | removing every copy of the tag is the `Where(x => x != tmp[0])` filter, so the kept tokens keep their order |
| Seqs.RemoveAllConcat | Samarium/Samarium/Source/Classes/Samarium.cs:254 | the kept arguments stay in token order |
| Seqs.FirstWhere | Samarium/Samarium/Source/Classes/Samarium.cs:176 | `FirstOrDefault` finds the first matching position, and finds none exactly when no element matches |
| Text.TrimLeading | Samarium/Samarium/Source/Classes/Samarium.cs:224 | the result is the suffix that starts at the first non-white-space character, and only white space is removed |
| Text.TrimTrailing | Samarium/Samarium/Source/Classes/Samarium.cs:224 | the result is the prefix that ends at the last non-white-space character, and only white space is removed |
| Text.Trim | Samarium/Samarium/Source/Classes/Samarium.cs:224 | the trimmed line neither starts nor ends with white space, and it is empty exactly when the line is all white space |
| Text.TrimOfPadded | Samarium/Samarium/Source/Classes/Samarium.cs:224 | trimming white-space padding off a core that has no padding of its own gives back the core |
| Text.TrimIdempotent | Samarium/Samarium/Source/Classes/Samarium.cs:224 | trimming twice is trimming once |
| Text.TrimStartChar | Samarium/Samarium/Source/Classes/Samarium.cs:248 | `TrimStart('?')` removes a leading run of `?` and nothing else, leaving a text that does not start with `?` |
| Text.IndexOf | Samarium/Samarium/Source/Classes/Samarium.ArgsImpl.cs:20 | `IndexOf` finds the first occurrence, and returns none exactly when the text does not contain the pattern |
| Text.Split | Samarium/Samarium/Source/Classes/Samarium.cs:175 | `Split` always yields at least one piece |
| Text.SplitIsLeftmost | Samarium/Samarium/Source/Classes/Samarium.cs:175 | the pieces joined by the delimiter give back the text, no piece contains the delimiter, and each cut is at the leftmost occurrence |
| Text.LeftmostSplitUnique | Samarium/Samarium/Source/Classes/Samarium.cs:175 | any decomposition with these properties is `Split`'s result: `Split` is the unique leftmost non-overlapping cut |
| Text.SplitJoin | Samarium/Samarium/Source/Classes/Samarium.cs:244 | joining the pieces with the delimiter restores the text, so the split loses nothing |
| Text.SplitPiecesFree | Samarium/Samarium/Source/Classes/Samarium.cs:244 | no piece contains the delimiter |
| Text.SplitAtFirst | Samarium/Samarium/Source/Classes/Samarium.cs:175 | the first piece ends at the first occurrence and the rest is split independently |
| Text.SplitAbsent | Samarium/Samarium/Source/Classes/Samarium.cs:175 | a text without the delimiter is one piece |
| Text.SplitDoubleSpace | Samarium/Samarium/Source/Classes/Samarium.ArgsImpl.cs:29 | `Split(' ')` keeps the empty piece between two spaces |
| Text.Replace | Samarium/Samarium/Source/Classes/Samarium.cs:367 | `Replace` leaves a text without the pattern unchanged |
| Text.ReplaceSelf | Samarium/Samarium/Source/Classes/Samarium.cs:367 | replacing a pattern with itself is the identity |
| Text.ReplaceFirst | Samarium/Samarium/Source/Classes/Samarium.cs:367 | the first occurrence is replaced and the remaining text is processed on its own |
| Text.AfterFirst | Samarium/Samarium/Source/Classes/Samarium.ArgsImpl.cs:20 | `Substring(IndexOf(c) + 1)` is the text after the first `c`, or all of it when there is no `c` |
| CommandChain.RegexSplit | Samarium/Samarium/Source/Classes/Samarium.cs:244 | `commandChainRegex.Split` alternates pieces and captured `&&`: an odd number of parts, every odd part is `&&`, and no even part contains `&&` |
| CommandChain.Interleave | Samarium/Samarium/Source/Classes/Samarium.cs:244 | `Regex.Split` with a capturing group puts the matched `&&` between neighbouring pieces |
| CommandChain.FilterInterleave | Samarium/Samarium/Source/Classes/Samarium.cs:244 | `.Where(x => x != "&&")` removes exactly the captured delimiters when no piece is `&&` |
| CommandChain.Segments | Samarium/Samarium/Source/Classes/Samarium.cs:244 | the segments of the loop are the leftmost `&&` split of the line |
| CommandChain.SegmentsAreLeftmostSplit | Samarium/Samarium/Source/Classes/Samarium.cs:244 | the segments rejoin to the line and contain no `&&` |
| CommandChain.IsAsyncSegment | Samarium/Samarium/Source/Classes/Samarium.cs:247 | a segment is marked exactly when its first two characters are both `?` |
| CommandChain.TokenText | Samarium/Samarium/Source/Classes/Samarium.cs:247-253 | a segment without the marker reaches the tokenizer untouched, and a marked one loses exactly its leading run of `?` |
| CommandChain.Interpret | Samarium/Samarium/Source/Classes/Samarium.cs:247-254 | no invocation iff the tokenizer yields nothing; otherwise the tag is the first token, async iff the segment starts with `??`, and the arguments are the multiset of tokens with every copy of the tag removed |
| CommandChain.InterpretKeepsTokenOrder | Samarium/Samarium/Source/Classes/Samarium.cs:249-254 | the arguments are the tokens that differ from the tag, in token order, as `Where(x => x != tmp[0])` gives them |
| CommandChain.TrimQuestionMarks | Samarium/Samarium/Source/Classes/Samarium.cs:248 | `TrimStart('?')` removes any number of leading question marks |
| CommandChain.AsyncMarkerOnlyChangesMode | Samarium/Samarium/Source/Classes/Samarium.cs:247-249 | two or more leading `?` change only the execution mode, and tag and arguments are those of the bare segment |
| CommandChain.SingleQuestionMarkIsSync | Samarium/Samarium/Source/Classes/Samarium.cs:247 | a single `?` is not a marker, and the tokenizer sees it |
| CommandChain.PlanSegments | Samarium/Samarium/Source/Classes/Samarium.cs:244-256 | segments are dispatched in order up to the first one without tokens, which faults the line |
| CommandChain.PlanLine | Samarium/Samarium/Source/Classes/Samarium.cs:224-228 | a line plans nothing and does not fault exactly when it is blank |
| CommandChain.PlanLineFollowsSegments | Samarium/Samarium/Source/Classes/Samarium.cs:224-256 | the calls of a non-blank line are the invocations of its segments in segment order, up to the first fault |
| CommandChain.NoArgumentEqualsTag | Samarium/Samarium/Source/Classes/Samarium.cs:249 | no dispatched invocation has its own tag among its arguments |
| CommandChain.PlanSegmentsConcat | Samarium/Samarium/Source/Classes/Samarium.cs:244-256 | chaining composes: a fault in the first part stops the second part |
| CommandChain.PlanSegmentsModes | Samarium/Samarium/Source/Classes/Samarium.cs:247 | a planned call is asynchronous exactly when its segment starts with `??` |
| CommandChain.TwoCommandSegments | Samarium/Samarium/Source/Classes/Samarium.cs:244 | `first && ??text` splits into `first ` and ` ??text`, each keeping its space |
| CommandChain.UntrimmedSegmentStaysSync | Samarium/Samarium/Source/Classes/Samarium.cs:244-253 | as written, no call of `first && ??text` is asynchronous |
| CommandChain.TrimAll | Samarium/Samarium/Source/Classes/Samarium.cs:224 | each segment is trimmed as the line itself is |
| CommandChain.PlanLineTrimmed | Samarium/Samarium/Source/Classes/Samarium.cs:224-256 | the corrected planner plans nothing and does not fault exactly when the line is blank |
| CommandChain.PaddedMarkerIsAsync | Samarium/Samarium/Source/Classes/Samarium.cs:247-249 | once segments are trimmed, a marker behind white space is recognised and only the mode changes |
| CommandChain.TrimmedSegmentLaunches | Samarium/Samarium/Source/Classes/Samarium.cs:244-253 | with trimmed segments, `first && ??text` runs `first` and launches `text` |
| CommandChain.LineSteps | Samarium/Samarium/Source/Classes/Samarium.cs:226-227 | a blank line makes no step at all; `CommandChain.LineStepsFollowSegments` gives the steps of every other line |
| CommandChain.LineStepsFollowSegments | Samarium/Samarium/Source/Classes/Samarium.cs:226-257 | each step of a non-blank line before the join dispatches the invocation of the segment at its position, and it is a launch exactly when that segment starts with `??`; the join happens exactly when every segment yields tokens; with the join there is one step per segment plus the join, without it the steps stop at the first segment without tokens |
| CommandChain.ScheduleCountsSegments | Samarium/Samarium/Source/Classes/Samarium.cs:243-255 | a run of segments makes one step per segment and then the join, or stops exactly at the first segment without tokens |
| CommandChain.ScheduleJoinsWhenAllParse | Samarium/Samarium/Source/Classes/Samarium.cs:243-255 | `WaitAll` is reached exactly when no segment of the line is without tokens |
| CommandChain.JoinComesLast | Samarium/Samarium/Source/Classes/Samarium.cs:249-257 | every launched call of the line is launched before the join, and nothing of the line follows it |
| SystemCommands.TagsDistinct | Samarium/Samarium/Source/Classes/Samarium.cs:44-139 | the built-in tags are `help`, `load`, `unload`, `exit`, `config`, `clear` and `list`, and no two are equal |
| SystemCommands.Lookup | Samarium/Samarium/Source/Classes/Samarium.cs:44-139 | a tag finds a command iff it is a built-in tag, and then it finds the one command with that tag |
| ArgsImpl.SetNoPlugins | Samarium/Samarium/Source/Classes/Samarium.ArgsImpl.cs:14 | auto-loading is off afterwards and every other option is unchanged |
| ArgsImpl.LogDirValue | Samarium/Samarium/Source/Classes/Samarium.ArgsImpl.cs:18-20 | for a case-insensitive `--logdir=` prefix the first `=` ends the prefix, so the value is the rest |
| ArgsImpl.LogDirectoryFrom | Samarium/Samarium/Source/Classes/Samarium.ArgsImpl.cs:16-20 | the value of the first `--logdir=` argument in any letter case, or null exactly when there is none |
| ArgsImpl.SetLogDir | Samarium/Samarium/Source/Classes/Samarium.ArgsImpl.cs:16-21 | only the log directory changes, and it becomes the value found (possibly null) |
| ArgsImpl.ExecArguments | Samarium/Samarium/Source/Classes/Samarium.ArgsImpl.cs:25-26 | exactly the command-line entries that start with `--exec=` |
| ArgsImpl.ExecValue | Samarium/Samarium/Source/Classes/Samarium.ArgsImpl.cs:27 | the value of an `--exec=` argument is everything after the prefix |
| ArgsImpl.ExecCommand | Samarium/Samarium/Source/Classes/Samarium.ArgsImpl.cs:27-29 | joining the words with single spaces gives back the quote-trimmed value, and no word contains a space |
| ArgsImpl.AutoExecCommands | Samarium/Samarium/Source/Classes/Samarium.ArgsImpl.cs:24-30 | one command per `--exec=` entry, in command-line order, each the split value of its entry |
| ArgsImpl.SingleExecArgument | Samarium/Samarium/Source/Classes/Samarium.ArgsImpl.cs:24-30 | a single `--exec=` argument yields exactly its own command |
| ArgsImpl.SetAutoExec | Samarium/Samarium/Source/Classes/Samarium.ArgsImpl.cs:23-31 | a missing list crashes; otherwise the commands are appended to the list and nothing else changes |
| ArgsImpl.LogDirKeepsLaterEquals | Samarium/Samarium/Source/Classes/Samarium.ArgsImpl.cs:20 | `--logdir=a=b` sets `a=b`: only the first `=` separates |
| ArgsImpl.ExecDoubleSpace | Samarium/Samarium/Source/Classes/Samarium.ArgsImpl.cs:29 | two spaces in an exec value produce an empty word |
| StartupArgs.ArgumentKey | Samarium/Samarium/Source/Classes/Samarium.cs:175 | the key is the text before the first `=`, or the whole argument when there is none |
| StartupArgs.KeyBeforeEquals | Samarium/Samarium/Source/Classes/Samarium.cs:175 | everything after the first `=` is ignored when selecting a handler |
| StartupArgs.KeyWithoutEquals | Samarium/Samarium/Source/Classes/Samarium.cs:175 | an argument without `=` is its own key |
| StartupArgs.Resolve | Samarium/Samarium/Source/Classes/Samarium.cs:176 | the first table entry whose text starts with the key, or none exactly when no entry does |
| StartupArgs.ResolvesTo | Samarium/Samarium/Source/Classes/Samarium.cs:176-179 | the entry that matches with no earlier entry matching is the one whose handler runs |
| StartupArgs.AbbreviationSelectsLogDir | Samarium/Samarium/Source/Classes/Samarium.cs:34-42 | `--log=...` is a prefix of `--logdir="<dir>"` and selects `SetLogDir` |
| StartupArgs.ExecSelectsAutoExec | Samarium/Samarium/Source/Classes/Samarium.cs:34-42 | `--exec=...` selects `SetAutoExec` |
| StartupArgs.NoPluginsSelectsSetNoPlugins | Samarium/Samarium/Source/Classes/Samarium.cs:34-42 | `--no-plugins` selects `SetNoPlugins` |
| StartupArgs.PluginDirSelectsSetPluginDir | Samarium/Samarium/Source/Classes/Samarium.cs:34-42 | `--plugindir=...` selects `SetPluginDir`, since no earlier row starts with `--plugindir` |
| StartupArgs.EmptyArgumentSelectsHelp | Samarium/Samarium/Source/Classes/Samarium.cs:175-179 | an empty argument is a prefix of every entry and selects `--help` |
| StartupArgs.SingleDashMatchesNothing | Samarium/Samarium/Source/Classes/Samarium.cs:176-178 | an argument that is no entry's prefix is skipped |
| StartupArgs.HandlersFor | Samarium/Samarium/Source/Classes/Samarium.cs:174-179 | at most one handler per argument; a handler runs iff some argument selects it |
| StartupArgs.HandlersForConcat | Samarium/Samarium/Source/Classes/Samarium.cs:174 | arguments are handled in argument order |
| StartupArgs.ApplyFlag | Samarium/Samarium/Source/Classes/Samarium.cs:35-41 | only `--help` exits, only `--exec=` on a missing list crashes, `--init` leaves the options alone, and no handler but the exec handler touches the startup list |
| StartupArgs.ApplyFlags | Samarium/Samarium/Source/Classes/Samarium.cs:174-180 | the process exits only through `--help`, with code 0; it crashes only through the exec handler on a missing list; without those two handlers it keeps running |
| StartupArgs.ParseArguments | Samarium/Samarium/Source/Classes/Samarium.cs:174-180 | the argument loop exits with code 0 only when some argument selects `--help`, and crashes only when the list is missing and some argument selects the exec handler |
| StartupArgs.SingleArgument | Samarium/Samarium/Source/Classes/Samarium.cs:174-180 | a single argument runs exactly its handler |
| StartupArgs.ApplyFlagsConcat | Samarium/Samarium/Source/Classes/Samarium.cs:174-180 | each handler starts from the options the previous one left, and nothing runs after the process ended |
| StartupArgs.ParseArgumentsInOrder | Samarium/Samarium/Source/Classes/Samarium.cs:174-180 | the arguments of the first part are handled completely before those of the second |
| StartupArgs.RunsWithoutHelp | Samarium/Samarium/Source/Classes/Samarium.cs:174-180 | without `--help`, the loop runs to its end when the list exists or no exec handler runs, and the list exists afterwards exactly when it did before |
| StartupArgs.RunsOnlyChangeFields | Samarium/Samarium/Source/Classes/Samarium.ArgsImpl.cs:23-31 | exec handlers change nothing but the startup command list |
| StartupArgs.HelpExits | Samarium/Samarium/Source/Classes/Samarium.cs:174-180 | `--help` ends the process with exit code 0 and no later handler runs, provided no earlier exec handler met a missing list |
| StartupArgs.HelpSelectsPrintHelp | Samarium/Samarium/Source/Classes/Samarium.cs:35 | `--help` selects `PrintHelp` |
| StartupArgs.HelpExitsWithSourceDefaults | Samarium/Samarium/Source/Classes/Samarium.cs:174-180 | from the source's own start state, a lone `--help` exits with code 0 |
| StartupArgs.ExecRepeats | Samarium/Samarium/Source/Classes/Samarium.ArgsImpl.cs:23-31 | each run of the exec handler appends all `--exec=` commands of the whole command line again |
| StartupArgs.ExecCrashesWithSourceDefaults | Samarium/Samarium/Source/Classes/Samarium.cs:152 | as written, any `--exec=` argument crashes with a null reference |
| StartupArgs.OneExecArgument | Samarium/Samarium/Source/Classes/Samarium.ArgsImpl.cs:23-31 | with a list present, one `--exec=` argument appends its own command once |
| StartupArgs.ExecQueuesWithInitialSettings | Samarium/Samarium/Source/Classes/Samarium.ArgsImpl.cs:23-31 | with the list created up front, `--exec=` queues its command |
| StartupArgs.TwoExecHandlers | Samarium/Samarium/Source/Classes/Samarium.cs:174-179 | two arguments that each select the exec handler make the argument loop run it twice |
| StartupArgs.TwoExecCommands | Samarium/Samarium/Source/Classes/Samarium.ArgsImpl.cs:24-30 | behind a program name that is not an exec argument, two exec arguments give two commands, in command-line order |
| StartupArgs.TwoExecArguments | Samarium/Samarium/Source/Classes/Samarium.ArgsImpl.cs:23-31 | a command line that selects the exec handler twice appends its exec commands twice |
| StartupArgs.ExecTwice | Samarium/Samarium/Source/Classes/Samarium.ArgsImpl.cs:23-31 | two exec handler runs append the command line's exec commands twice and change nothing else |
| StartupArgs.ExecTwiceQueuesBothTwice | Samarium/Samarium/Source/Classes/Samarium.ArgsImpl.cs:23-31 | two `--exec=` arguments queue four commands: the pair, twice |
| StartupArgs.PairQueuedTwice | Samarium/Samarium/Source/Classes/Samarium.ArgsImpl.cs:23-31 | from an empty startup list, two exec arguments leave exactly their two commands, queued twice over, and no other option changed |
| StartupArgs.NoPluginsIsNoOpWithSourceDefaults | Samarium/Samarium/Source/Classes/Samarium.cs:147 | as written, `--no-plugins` changes nothing because auto-loading already starts off |
| StartupArgs.NoPluginsClearsAutoLoad | Samarium/Samarium/Source/Classes/Samarium.ArgsImpl.cs:14 | from a start state with the flag on, `--no-plugins` clears `AutoLoadPlugins` and changes nothing else |
| StartupArgs.AbbreviatedLogDirClearsIt | Samarium/Samarium/Source/Classes/Samarium.ArgsImpl.cs:16-20 | `--log=...` reaches `SetLogDir`, which finds no `--logdir=` and sets the directory to null |
| PluginLists.ReadLines | Samarium/Samarium/Source/Classes/Samarium.cs:351-352 | no line contains a line break, and an empty file has no lines |
| PluginLists.ReadLinesTerminated | Samarium/Samarium/Source/Classes/Samarium.cs:351-352 | lines written with `\n`, `\r\n` or `\r` after each are read back unchanged |
| PluginLists.ListEntries | Samarium/Samarium/Source/Classes/Samarium.cs:353-355 | exactly the lines that do not start with `#` are kept |
| PluginLists.ListEntriesConcat | Samarium/Samarium/Source/Classes/Samarium.cs:351-356 | comments are dropped line by line, in file order |
| PluginLists.CommentsOnly | Samarium/Samarium/Source/Classes/Samarium.cs:353-354 | a file of comments has no entries |
| PluginLists.ReadList | Samarium/Samarium/Source/Classes/Samarium.cs:347-356 | a missing file has no entries, and each entry is one line that is not a comment |
| PluginLists.ReadListOfLines | Samarium/Samarium/Source/Classes/Samarium.cs:362-368 | a file written line by line yields exactly its lines that are not comments, in order |
| PluginLists.ReadListOneLine | Samarium/Samarium/Source/Classes/Samarium.cs:362-368 | a file holding one unterminated line that is not a comment lists exactly that line |
| PluginLists.ExpandPluginDir | Samarium/Samarium/Source/Classes/Samarium.cs:367 | a line without `$(plugin_dir)` is kept verbatim |
| PluginLists.ExpandLeadingVariable | Samarium/Samarium/Source/Classes/Samarium.cs:367 | `$(plugin_dir)rest` becomes the plugin directory followed by `rest` |
| PluginLists.ExpandWithPlaceholderDir | Samarium/Samarium/Source/Classes/Samarium.cs:367 | expansion is the identity when the directory is the placeholder itself |
| PluginLists.ExpandAll | Samarium/Samarium/Source/Classes/Samarium.cs:363-368 | one expanded entry per include entry, in order |
| PluginLists.ExpandAllPlain | Samarium/Samarium/Source/Classes/Samarium.cs:367 | include lines without the placeholder pass through unchanged |
| PluginLists.InitialLoadArgs | Samarium/Samarium/Source/Classes/Samarium.cs:372-373 | the first request holds exactly the DLL paths that no ignore entry names |
| PluginLists.NothingIgnored | Samarium/Samarium/Source/Classes/Samarium.cs:372-373 | with no ignore entries every DLL is requested, in listing order |
| PluginLists.CommentCannotIgnore | Samarium/Samarium/Source/Classes/Samarium.cs:353-355 | a DLL path that starts with `#` cannot be ignored |
| PluginLists.IncludeLoadArgs | Samarium/Samarium/Source/Classes/Samarium.cs:380-381 | the include request holds exactly the untrimmed entries that are not blank and name an existing file |
| PluginLists.LoadPlugins | Samarium/Samarium/Source/Classes/Samarium.cs:342-381 | the include request is skipped exactly when every include entry is blank and the first load reported nothing; otherwise it holds the existing, non-blank expanded entries |
| PluginLists.NothingToLoad | Samarium/Samarium/Source/Classes/Samarium.cs:372-377 | with no list files and no DLLs, only the empty initial request is made and the host warns instead of loading includes |
| PluginLists.CommentedIncludeWarns | Samarium/Samarium/Source/Classes/Samarium.cs:375-377 | an include file of comments counts as empty, so the host only warns when the first load found nothing |
| BootSequence.PluginsAtBootAsWritten | Samarium/Samarium/Source/Classes/Samarium.cs:173-206 | as written, a boot that survives argument handling always makes the load requests, whatever the options; they are read from the plugins directory the arguments left behind: the initial request holds that directory's DLLs not named in its `plugins.ignore`, and the include request holds the existing, non-blank entries of its `plugins.include` expanded with that directory |
| BootSequence.PluginsAtBoot | Samarium/Samarium/Source/Classes/Samarium.cs:206 | corrected: the load requests are made exactly when argument handling keeps running and `AutoLoadPlugins` is on, and they are then the requests of the boot as written |
| BootSequence.NoPluginsStillLoadsAsWritten | Samarium/Samarium/Source/Classes/Samarium.cs:206 | as written, `--no-plugins` yields the same load requests as no argument at all, from any start state |
| BootSequence.NoPluginsSkipsLoading | Samarium/Samarium/Source/Classes/Samarium.cs:206 | corrected: a plain start loads the plugins and `--no-plugins` makes no load request |
| BootSequence.PluginDirSetsBootDir | Samarium/Samarium/Source/Classes/Samarium.cs:342-372 | after a lone `--plugindir=` argument the boot reads from the directory `SetPluginDir` leaves behind |
| BootSequence.IncludeOfLeadingVariable | Samarium/Samarium/Source/Classes/Samarium.cs:362-368 | an include file whose one line is `$(plugin_dir)rest` lists the plugins directory followed by `rest` |
| BootSequence.PluginDirDecidesExpansion | Samarium/Samarium/Source/Classes/Samarium.cs:342-381 | `--plugindir=` decides the `$(plugin_dir)` expansion: an include entry `$(plugin_dir)rest` in the new directory's `plugins.include` becomes that directory followed by `rest`, and it is the whole include request when that file exists |

## Left out

- The tokenizer `SplitCommandLine` and `TrimMatchingQuotes` belong to the plugin framework. That source is not part of this model, so both are parameters.
- The registry is not modelled: plugin loading, `ExecuteCommand`/`ExecuteCommandAsync` dispatch and command handlers. An invocation is the tag and arguments handed over.
- Tasks and `Task.WaitAll` are not modelled as concurrency. `CommandChain.Schedule` records only the order of runs, launches and the join. Thread scheduling is outside a sequential model.
- An exception thrown by a command inside the loop is not modelled. The model covers only the fault from a segment without tokens (`tmp[0]`).
- `Console.ReadLine` returning null (end of input) is treated like an empty line. Both are skipped by the same `IsNullOrEmpty` test.
- Culture-sensitive comparisons are simplified. `Argument.StartsWith(splitArg)` (`Samarium.cs` line 176), `arg.StartsWith("--exec=")` (`Samarium.ArgsImpl.cs` line 26), `StartsWith("??")` and `StartsWith("#", InvariantCulture)` are all ordinal. `InvariantCultureIgnoreCase` folds ASCII letters only. Culture data is outside the model.
- `File.Create` of a missing list file is not modelled, only the empty list it leads to.
- `Directory.GetFiles(PluginsDirectory, "*.dll")` is the parameter `dllsIn` of `BootSequence.PluginSources`, because wildcard matching belongs to the file system.
- `StreamReader` encoding detection (a byte-order mark) is not modelled. The file is taken as decoded text.
- `PluginLists.LoadPlugins` takes the result count of the first `load` (`((dynamic)initialResults).Result.Count`) as a parameter. It depends on the registry.
- `Main`'s boot steps other than `LoadPlugins()` are not modelled; `BootSequence` covers only whether and what plugins are requested.
- `--init` (`InitWizard`) is interactive console UI, so it leaves the options unchanged here.
- StartupArgs.ApplyFlag: the bodies of `SetConfigDir` and `SetPluginDir` are not part of this model. The partial declarations at `Samarium.cs` lines 414-416 are used as delegates, so their implementations exist elsewhere. They are the `Host` parameters `configDir` and `pluginDir`. Going by their table descriptions, each is assumed to set only its own directory and to return normally.
- `PrintHelp` draws on the console; only its `Environment.Exit(0)` is modelled.
- `Main`'s boot sequence after argument handling (directories, logger, config, REST service, console hooks) is I/O.
- The `exit` command's handler (`KeepAlive = false`) is part of the read loop's control flow, which is not modelled. Only the built-in table is modelled, with one-line summaries instead of the long descriptions.
- `Program.cs` and the plugin framework are not part of this model.

## Findings

| source | as written | input that shows it | evidently intended | confidence | as-written member | corrected member |
|---|---|---|---|---|---|---|
| Samarium/Samarium/Source/Classes/Samarium.cs:152 | `StartupCommands` has no initialiser, so `SetAutoExec` calls `AddRange` on null | the argument `--exec=load x.dll` | the command list exists before arguments are handled, so `--exec=` queues its command | medium; not executed | StartupArgs.ExecCrashesWithSourceDefaults | StartupArgs.ExecQueuesWithInitialSettings |
| Samarium/Samarium/Source/Classes/Samarium.cs:206 | `LoadPlugins()` is called unconditionally and `AutoLoadPlugins` (which starts as `false`, line 147) is never read, so `--no-plugins` does not stop loading | the argument `--no-plugins` | plugins load by default and `--no-plugins` stops the load requests, as its table description says | medium; not executed | BootSequence.NoPluginsStillLoadsAsWritten | BootSequence.NoPluginsSkipsLoading |
| Samarium/Samarium/Source/Classes/Samarium.cs:244-247 | segments keep the space that follows `&&`, so a `??` after `&& ` is never seen | the line `a && ??b` | `b` is launched asynchronously, as the loop's cheat sheet (`?? => Asynchronous execution`) describes | high; not executed | CommandChain.UntrimmedSegmentStaysSync | CommandChain.TrimmedSegmentLaunches |

=== FILE: argsimpl.dfy ===
/**
  The argument handlers of Samarium.ArgsImpl.cs: each reads the whole
  command line again and updates one runtime option.

  `TrimMatchingQuotes` belongs to the plugin framework, whose source is not
  part of this model; it is the parameter `trimQuotes`.
 */
module ArgsImpl {
  import opened Wrappers
  import opened Text
  import opened Seqs
  import opened RuntimeOptions

  const LogDirPrefix: string := "--logdir="
  const ExecPrefix: string := "--exec="

  /** `SetNoPlugins`: switches automatic plugin loading off and nothing else. */
  function SetNoPlugins(s: Settings): (r: Settings)
    ensures !r.autoLoadPlugins
    ensures r.startupCommands == s.startupCommands && r.logDirectory == s.logDirectory
    ensures r.configDirectory == s.configDirectory && r.pluginsDirectory == s.pluginsDirectory
  {
    s.(autoLoadPlugins := false)
  }

  /** The argument `SetLogDir` picks: the first one that starts with
      `--logdir=`, ignoring case. */
  predicate IsLogDirArgument(arg: string) {
    StartsWithIgnoreCase(arg, LogDirPrefix)
  }

  /** A case-insensitive `--logdir=` prefix has its first `=` at the end, so
      the value is everything after the prefix, `=` signs included. */
  lemma LogDirValue(arg: string)
    requires IsLogDirArgument(arg)
    ensures AfterFirst(arg, '=') == arg[|LogDirPrefix|..]
  {
    assert arg[8] == '=' by { assert FoldCase(arg[8]) == '='; }
    assert '=' !in arg[..8] by {
      forall i | 0 <= i < 8
        ensures arg[..8][i] != '='
      {
        assert FoldCase(arg[i]) == FoldCase(LogDirPrefix[i]);
      }
    }
  }

  /** `SetLogDir`'s value: the text after the first `=` of the first
      `--logdir=` argument, or null when there is none. */
  function LogDirectoryFrom(cmd: CommandLine): (r: Option<string>)
    ensures r.None? <==> forall j :: 0 <= j < |cmd.All()| ==> !IsLogDirArgument(cmd.All()[j])
    ensures r.Some? ==>
              exists i :: 0 <= i < |cmd.All()|
                && IsLogDirArgument(cmd.All()[i])
                && (forall j :: 0 <= j < i ==> !IsLogDirArgument(cmd.All()[j]))
                && r.value == cmd.All()[i][|LogDirPrefix|..]
  {
    var all := cmd.All();
    match FirstWhere(all, IsLogDirArgument)
    case None => None
    case Some(i) =>
      LogDirValue(all[i]);
      Some(AfterFirst(all[i], '='))
  }

  /** `SetLogDir`: only the log directory changes. */
  function SetLogDir(cmd: CommandLine, s: Settings): (r: Settings)
    ensures r.logDirectory == LogDirectoryFrom(cmd)
    ensures r.(logDirectory := s.logDirectory) == s
  {
    s.(logDirectory := LogDirectoryFrom(cmd))
  }

  /** The arguments `SetAutoExec` takes: exactly those starting with `--exec=`. */
  predicate IsExecArgument(arg: string) {
    StartsWith(arg, ExecPrefix)
  }

  function ExecArguments(cmd: CommandLine): (r: seq<string>)
    ensures forall a :: a in r <==> a in cmd.All() && IsExecArgument(a)
  {
    Filter(cmd.All(), IsExecArgument)
  }

  /** An `--exec=` argument's value is the text after the prefix. */
  lemma ExecValue(arg: string)
    requires IsExecArgument(arg)
    ensures AfterFirst(arg, '=') == arg[|ExecPrefix|..]
  {
    assert arg[..7] == ExecPrefix;
    assert arg[6] == '=';
    assert '=' !in arg[..6] by { assert arg[..6] == "--exec"; }
  }

  /** One command array for an `--exec=` argument: the value after the first
      `=`, with matching quotes trimmed, split at every single space. */
  function ExecCommand(arg: string, trimQuotes: string -> string): (r: seq<string>)
    requires IsExecArgument(arg)
    ensures Join(r, " ") == trimQuotes(arg[|ExecPrefix|..])
    ensures forall k :: 0 <= k < |r| ==> ' ' !in r[k]
  {
    ExecValue(arg);
    var value := trimQuotes(AfterFirst(arg, '='));
    SplitJoin(value, " ");
    SplitPiecesFree(value, " ");
    var r := Split(value, " ");
    assert forall k :: 0 <= k < |r| ==> ' ' !in r[k] by {
      forall k | 0 <= k < |r|
        ensures ' ' !in r[k]
      {
        OccursSingle(r[k], ' ');
      }
    }
    r
  }

  /** What `SetAutoExec` adds: one command array per `--exec=` argument, in
      command-line order. */
  function AutoExecCommands(cmd: CommandLine, trimQuotes: string -> string): (r: seq<seq<string>>)
    ensures |r| == |ExecArguments(cmd)|
    ensures forall k :: 0 <= k < |r| ==> Join(r[k], " ") == trimQuotes(ExecArguments(cmd)[k][|ExecPrefix|..])
    ensures forall k, j :: 0 <= k < |r| && 0 <= j < |r[k]| ==> ' ' !in r[k][j]
  {
    var execs := ExecArguments(cmd);
    seq(|execs|, k requires 0 <= k < |execs| => ExecCommand(execs[k], trimQuotes))
  }

  /** A command line whose only `--exec=` argument is `arg` queues one array. */
  lemma SingleExecArgument(program: string, arg: string, trimQuotes: string -> string)
    requires !IsExecArgument(program) && IsExecArgument(arg)
    ensures AutoExecCommands(CommandLine(program, [arg]), trimQuotes) == [ExecCommand(arg, trimQuotes)]
  {
    var cmd := CommandLine(program, [arg]);
    assert cmd.All() == [program] + [arg];
    FilterConcat([program], [arg], IsExecArgument);
    assert Filter([program], IsExecArgument) == [];
    assert Filter([arg], IsExecArgument) == [arg];
    assert ExecArguments(cmd) == [arg];
  }

  /** `SetAutoExec`: appends the commands to `StartupCommands`; with the list
      still null, `AddRange` throws a `NullReferenceException`. */
  function SetAutoExec(cmd: CommandLine, trimQuotes: string -> string, s: Settings): (r: Boot)
    ensures s.startupCommands.None? ==> r.Crashed?
    ensures s.startupCommands.Some? ==>
              && r.Running?
              && r.settings.startupCommands == Some(s.startupCommands.value + AutoExecCommands(cmd, trimQuotes))
              && r.settings.(startupCommands := s.startupCommands) == s
  {
    match s.startupCommands
    case None => Crashed("NullReferenceException")
    case Some(commands) =>
      Running(s.(startupCommands := Some(commands + AutoExecCommands(cmd, trimQuotes))))
  }

  /** `--logdir=a=b` sets the log directory to `a=b`. */
  lemma LogDirKeepsLaterEquals(program: string)
    requires !IsLogDirArgument(program)
    ensures LogDirectoryFrom(CommandLine(program, ["--logdir=a=b"])) == Some("a=b")
  {
    var all := CommandLine(program, ["--logdir=a=b"]).All();
    assert IsLogDirArgument(all[1]);
    assert "--logdir=a=b"[9..] == "a=b";
  }

  /** Consecutive spaces in an `--exec=` value give empty tokens. */
  lemma ExecDoubleSpace(trimQuotes: string -> string)
    requires trimQuotes("a  b") == "a  b"
    ensures ExecCommand("--exec=a  b", trimQuotes) == ["a", "", "b"]
  {
    ExecValue("--exec=a  b");
    assert "--exec=a  b"[7..] == "a  b";
    SplitDoubleSpace();
  }
}

=== FILE: boot.dfy ===
/**
  The plugin step of `Main` (Samarium.cs, line 206): after the startup
  arguments are handled, the host boots and calls `LoadPlugins()`, which
  reads everything from the plugins directory the arguments left behind.
  The file system and the registry's answer are the `PluginSources`.
 */
module BootSequence {
  import opened Wrappers
  import opened Text
  import opened RuntimeOptions
  import opened StartupArgs
  import opened PluginLists

  /** What `LoadPlugins` can observe, for any directory: the text of a file
      (`None` when it does not exist), `Directory.GetFiles(dir, "*.dll")`, the
      first load's result count and `File.Exists`. */
  datatype PluginSources = PluginSources(
    readFile: string -> Option<string>,
    dllsIn: string -> seq<string>,
    loaded: seq<string> -> nat,
    fileExists: string -> bool)

  /** `$"{ PluginsDirectory }/plugins.ignore"` and its include twin. */
  function IgnorePath(dir: string): string { dir + "/plugins.ignore" }
  function IncludePath(dir: string): string { dir + "/plugins.include" }

  /** The requests `LoadPlugins` makes with `PluginsDirectory == dir`. */
  function RequestsFrom(src: PluginSources, dir: string): BootLoad {
    LoadPlugins(dir, src.readFile(IgnorePath(dir)), src.readFile(IncludePath(dir)),
                src.dllsIn(dir), src.loaded, src.fileExists)
  }

  /** The load requests of a boot as written: once argument handling lets
      the process go on, `LoadPlugins()` runs whatever the options say, in
      the plugins directory the arguments chose. `None` when the process
      ended during argument handling. */
  function PluginsAtBootAsWritten(cmd: CommandLine, host: Host, init: Settings, src: PluginSources): (r: Option<BootLoad>)
    ensures r.Some? <==> ParseArguments(cmd, host, init).Running?
    ensures r.Some? ==>
      var dir := ParseArguments(cmd, host, init).settings.pluginsDirectory;
      forall x :: x in r.value.initial <==> x in src.dllsIn(dir) && x !in ReadList(src.readFile(IgnorePath(dir)))
    ensures r.Some? ==>
      var dir := ParseArguments(cmd, host, init).settings.pluginsDirectory;
      r.value.included.Some? ==>
        forall x :: x in r.value.included.value
          <==> x in ExpandAll(ReadList(src.readFile(IncludePath(dir))), dir) && !IsBlank(x) && src.fileExists(x)
  {
    match ParseArguments(cmd, host, init)
    case Running(s) => Some(RequestsFrom(src, s.pluginsDirectory))
    case _ => None
  }

  /** The boot as `--no-plugins` describes it: plugins are loaded only while
      `AutoLoadPlugins` holds, from the same directory. */
  function PluginsAtBoot(cmd: CommandLine, host: Host, init: Settings, src: PluginSources): (r: Option<BootLoad>)
    ensures r.Some? <==> ParseArguments(cmd, host, init).Running? && ParseArguments(cmd, host, init).settings.autoLoadPlugins
    ensures r.Some? ==> Some(r.value) == PluginsAtBootAsWritten(cmd, host, init, src)
  {
    match ParseArguments(cmd, host, init)
    case Running(s) => if s.autoLoadPlugins then Some(RequestsFrom(src, s.pluginsDirectory)) else None
    case _ => None
  }

  /** As written, `--no-plugins` does not stop loading: whatever the start
      state, the boot makes the same requests as with no argument at all. */
  lemma NoPluginsStillLoadsAsWritten(program: string, host: Host, init: Settings, src: PluginSources)
    ensures PluginsAtBootAsWritten(CommandLine(program, ["--no-plugins"]), host, init, src)
         == Some(RequestsFrom(src, init.pluginsDirectory))
    ensures PluginsAtBootAsWritten(CommandLine(program, []), host, init, src)
         == Some(RequestsFrom(src, init.pluginsDirectory))
  {
    NoPluginsSelectsSetNoPlugins();
    SingleArgument(program, "--no-plugins", NoPlugins, host, init);
  }

  /** With loading on by default and the flag read at boot, a plain start
      loads the plugins and `--no-plugins` makes no load request at all. */
  lemma NoPluginsSkipsLoading(program: string, host: Host, src: PluginSources)
    ensures PluginsAtBoot(CommandLine(program, []), host, InitialSettings, src)
         == Some(RequestsFrom(src, InitialSettings.pluginsDirectory))
    ensures PluginsAtBoot(CommandLine(program, ["--no-plugins"]), host, InitialSettings, src) == None
  {
    NoPluginsClearsAutoLoad(program, host);
  }

  /** A lone `--plugindir=` argument makes the boot read from the directory
      `SetPluginDir` leaves behind. */
  lemma PluginDirSetsBootDir(program: string, value: string, host: Host, init: Settings, src: PluginSources)
    ensures PluginsAtBootAsWritten(CommandLine(program, ["--plugindir=" + value]), host, init, src)
         == Some(RequestsFrom(src, host.pluginDir(CommandLine(program, ["--plugindir=" + value]), init.pluginsDirectory)))
  {
    PluginDirSelectsSetPluginDir(value);
    SingleArgument(program, "--plugindir=" + value, PluginDir, host, init);
  }

  /** An include file whose one line is `$(plugin_dir)rest` lists `dir + rest`. */
  lemma IncludeOfLeadingVariable(dir: string, rest: string)
    requires !Occurs(rest, PluginDirVariable) && NoBreaks(rest)
    ensures ExpandAll(ReadList(Some(PluginDirVariable + rest)), dir) == [dir + rest]
  {
    var line := PluginDirVariable + rest;
    assert line[0] == '$';
    assert NoBreaks(line) by {
      forall j | 0 <= j < |line|
        ensures !IsLineBreak(line[j])
      {
        if j >= |PluginDirVariable| {
          assert line[j] == rest[j - |PluginDirVariable|];
        }
      }
    }
    ReadListOneLine(line);
    ExpandLeadingVariable(dir, rest);
    assert ExpandAll([line], dir)[0] == dir + rest;
  }

  /** `--plugindir=` decides where the boot looks: the directory `SetPluginDir`
      leaves behind (`dir`) names the list files, the DLL listing, and the
      text a `$(plugin_dir)` include entry expands to. */
  lemma PluginDirDecidesExpansion(program: string, value: string, host: Host, init: Settings,
                                  src: PluginSources, dir: string, rest: string)
    requires dir == host.pluginDir(CommandLine(program, ["--plugindir=" + value]), init.pluginsDirectory)
    requires !Occurs(rest, PluginDirVariable) && NoBreaks(rest)
    requires src.readFile(IncludePath(dir)) == Some(PluginDirVariable + rest)
    ensures PluginsAtBootAsWritten(CommandLine(program, ["--plugindir=" + value]), host, init, src)
         == Some(RequestsFrom(src, dir))
    ensures ExpandAll(ReadList(src.readFile(IncludePath(dir))), dir) == [dir + rest]
    ensures !IsBlank(dir + rest) && src.fileExists(dir + rest) ==>
      var r := PluginsAtBootAsWritten(CommandLine(program, ["--plugindir=" + value]), host, init, src);
      r.Some? && r.value.included.Some? && forall x :: x in r.value.included.value <==> x == dir + rest
  {
    PluginDirSetsBootDir(program, value, host, init, src);
    IncludeOfLeadingVariable(dir, rest);
    var expanded := ExpandAll(ReadList(src.readFile(IncludePath(dir))), dir);
    assert dir + rest in expanded;
  }
}

=== FILE: catalog.dfy ===
/**
  The built-in command table `SystemCommands` (Samarium.cs, lines 44-139):
  the commands the host itself provides, with the argument and switch names
  they document. Descriptions are kept to the one-line summaries.
 */
module SystemCommands {
  import opened Wrappers
  import opened Seqs

  /** The handler each built-in command is bound to. */
  datatype Handler = HelpHandler | LoadPlugin | UnloadPlugin | StopLoop | ConfigHandler | ClearConsole | ListHandler

  /** One `Command` of the table. `arguments` and `switches` are `None` where
      the source leaves them null or unset; `switches` holds the keys of the
      `Switches` dictionary. */
  datatype SystemCommand = SystemCommand(
    tag: string,
    arguments: Option<seq<string>>,
    switches: Option<seq<string>>,
    shortDescription: string,
    handler: Handler)

  const Catalog: seq<SystemCommand> := [
    SystemCommand("help", Some(["--quiet", "--q"]), Some(["-plugin="]),
      "Prints a list of all commands and their parent plugins.", HelpHandler),
    SystemCommand("load", None, None, "Loads a new plugin in to Samarium.", LoadPlugin),
    SystemCommand("unload", None, None, "Unloads a plugin from Samarium.", UnloadPlugin),
    SystemCommand("exit", None, None, "Terminates Samarium in a controller manor.", StopLoop),
    SystemCommand("config", Some(["--load", "--save", "--load-defaults", "--get", "--set", "--list"]), None,
      "Basic config management.", ConfigHandler),
    SystemCommand("clear", None, None, "Clears the console.", ClearConsole),
    SystemCommand("list", Some(["--all-plugins", "--loaded-plugins", "--ignored-plugins"]), None,
      "Lists the desired information", ListHandler)
  ]

  /** The tags of the table, in table order. */
  function Tags(): (r: seq<string>)
    ensures |r| == |Catalog|
    ensures forall k :: 0 <= k < |Catalog| ==> r[k] == Catalog[k].tag
  {
    seq(|Catalog|, k requires 0 <= k < |Catalog| => Catalog[k].tag)
  }

  ghost predicate Distinct<T>(s: seq<T>) {
    forall i, j :: 0 <= i < j < |s| ==> s[i] != s[j]
  }

  /** The built-in tags are exactly `help, load, unload, exit, config, clear,
      list`, and no two commands share one. */
  lemma TagsDistinct()
    ensures Tags() == ["help", "load", "unload", "exit", "config", "clear", "list"]
    ensures Distinct(Tags())
  {
    var t := Tags();
    assert t == ["help", "load", "unload", "exit", "config", "clear", "list"];
    assert t[0][0] == 'h' && t[1][0] == 'l' && t[2][0] == 'u' && t[3][0] == 'e';
    assert t[4][0] == 'c' && t[5][0] == 'c' && t[6][0] == 'l';
    assert t[1][1] == 'o' && t[6][1] == 'i';
    assert t[4][1] == 'o' && t[5][1] == 'l';
  }

  /** The built-in command with the given tag, if there is one. Since tags
      are distinct, the command found is the only one with that tag. */
  function Lookup(tag: string): (r: Option<SystemCommand>)
    ensures r.Some? <==> tag in Tags()
    ensures r.Some? ==> r.value in Catalog && r.value.tag == tag
    ensures r.Some? ==> forall c :: c in Catalog && c.tag == tag ==> c == r.value
  {
    TagsDistinct();
    match FirstWhere(Catalog, (c: SystemCommand) => c.tag == tag)
    case None => None
    case Some(i) => Some(Catalog[i])
  }
}

=== FILE: chain.dfy ===
/**
  The host's read loop turns one console line into a plan of command
  invocations (Samarium.cs, lines 224-257): the line is trimmed, split at
  every `&&`, each segment is marked asynchronous when it starts with `??`,
  and the segment's tokens give the command tag and its arguments.

  The tokenizer (`SplitCommandLine`) belongs to the plugin framework, whose
  source is not part of this model; it is the parameter `tokenize`.
 */
module CommandChain {
  import opened Wrappers
  import opened Text
  import opened Seqs

  /** The text matched by `commandChainRegex`, `([&]{2})`. */
  const ChainOperator: string := "&&"

  /** The prefix that requests asynchronous execution of a segment. */
  const AsyncMarker: string := "??"

  /** One command to dispatch: `ExecuteCommand(tag, args)`, or
      `ExecuteCommandAsync(tag, args)` when `isAsync`. */
  datatype Invocation = Invocation(tag: string, args: seq<string>, isAsync: bool)

  /** What one line makes the host do: the invocations it dispatches, in
      order, and whether a segment without tokens faulted (`tmp[0]` on an
      empty array), which abandons the remaining segments and skips the
      join of the asynchronous calls already launched. */
  datatype LinePlan = LinePlan(calls: seq<Invocation>, faulted: bool)

  /** One observable step of executing a plan. */
  datatype Step = Run(call: Invocation) | Launch(call: Invocation) | JoinAll

  // ---------------------------------------------------------------------------
  // Splitting the line into segments
  // ---------------------------------------------------------------------------

  /** The pieces with `d` between neighbours: the shape of `Regex.Split`'s
      result when the pattern is one capturing group. */
  function Interleave(pieces: seq<string>, d: string): (r: seq<string>)
    requires |pieces| >= 1
    ensures |r| == 2 * |pieces| - 1
    ensures forall k :: 0 <= k < |pieces| ==> r[2 * k] == pieces[k]
    ensures forall k :: 0 <= k < |pieces| - 1 ==> r[2 * k + 1] == d
  {
    if |pieces| == 1 then pieces
    else
      var rest := Interleave(pieces[1..], d);
      var r := [pieces[0], d] + rest;
      assert forall k :: 0 <= k < |pieces| - 1 ==> r[2 * k + 1] == d by {
        forall k | 0 <= k < |pieces| - 1
          ensures r[2 * k + 1] == d
        {
          if k > 0 {
            assert r[2 * k + 1] == rest[2 * (k - 1) + 1];
          }
        }
      }
      r
  }

  /** `Regex.Split(s, "([&]{2})")`: the pieces between leftmost matches of
      `&&`, with every captured `&&` kept between them. */
  function RegexSplit(s: string): (r: seq<string>)
    ensures |r| == 2 * |Split(s, ChainOperator)| - 1
    ensures forall k :: 0 <= k < |r| && k % 2 == 1 ==> r[k] == ChainOperator
    ensures forall k :: 0 <= k < |r| && k % 2 == 0 ==> !Occurs(r[k], ChainOperator)
  {
    var pieces := Split(s, ChainOperator);
    var r := Interleave(pieces, ChainOperator);
    SplitPiecesFree(s, ChainOperator);
    assert forall k :: 0 <= k < |r| && k % 2 == 1 ==> r[k] == ChainOperator by {
      forall k | 0 <= k < |r| && k % 2 == 1
        ensures r[k] == ChainOperator
      {
        assert k == 2 * (k / 2) + 1;
      }
    }
    assert forall k :: 0 <= k < |r| && k % 2 == 0 ==> !Occurs(r[k], ChainOperator) by {
      forall k | 0 <= k < |r| && k % 2 == 0
        ensures !Occurs(r[k], ChainOperator)
      {
        assert k == 2 * (k / 2);
        assert r[k] == pieces[k / 2];
      }
    }
    r
  }

  lemma {:induction false} FilterInterleave(pieces: seq<string>, d: string)
    requires |pieces| >= 1
    requires forall k :: 0 <= k < |pieces| ==> pieces[k] != d
    ensures Filter(Interleave(pieces, d), x => x != d) == pieces
  {
    if |pieces| > 1 {
      FilterInterleave(pieces[1..], d);
      var rest := Interleave(pieces[1..], d);
      assert [pieces[0], d] + rest == [pieces[0]] + ([d] + rest);
      assert ([pieces[0]] + ([d] + rest))[1..] == [d] + rest;
      assert ([d] + rest)[1..] == rest;
      assert pieces == [pieces[0]] + pieces[1..];
    }
  }

  /** `commandChainRegex.Split(line).Where(x => x != "&&")`: the filter
      removes exactly the captured delimiters, since no segment contains
      `&&`, so the segments are the leftmost split of the line at `&&`. */
  function Segments(line: string): (r: seq<string>)
    ensures r == Split(line, ChainOperator)
    ensures |r| >= 1
  {
    var pieces := Split(line, ChainOperator);
    SplitPiecesFree(line, ChainOperator);
    assert forall k :: 0 <= k < |pieces| ==> pieces[k] != ChainOperator by {
      forall k | 0 <= k < |pieces|
        ensures pieces[k] != ChainOperator
      {
        if pieces[k] == ChainOperator {
          assert OccursAt(pieces[k], ChainOperator, 0);
        }
      }
    }
    FilterInterleave(pieces, ChainOperator);
    Filter(RegexSplit(line), x => x != ChainOperator)
  }

  /** The segments joined with `&&` give back the line, no segment contains
      `&&`, and each `&&` used is the leftmost one still available; quotes
      play no part. */
  lemma SegmentsAreLeftmostSplit(line: string)
    ensures IsLeftmostSplit(Segments(line), line, ChainOperator)
    ensures Join(Segments(line), ChainOperator) == line
    ensures forall k :: 0 <= k < |Segments(line)| ==> !Occurs(Segments(line)[k], ChainOperator)
  {
    SplitIsLeftmost(line, ChainOperator);
    SplitPiecesFree(line, ChainOperator);
  }

  // ---------------------------------------------------------------------------
  // Interpreting one segment
  // ---------------------------------------------------------------------------

  /** `command.StartsWith("??")`: exactly the first two characters decide. */
  predicate IsAsyncSegment(segment: string): (r: bool)
    ensures r <==> |segment| >= 2 && segment[0] == '?' && segment[1] == '?'
  {
    StartsWith(segment, AsyncMarker)
  }

  /** The text handed to the tokenizer: for an asynchronous segment every
      leading `?` is removed (`TrimStart('?')`), otherwise the segment is
      used as it is, without any trimming. */
  function TokenText(segment: string): (r: string)
    ensures !IsAsyncSegment(segment) ==> r == segment
    ensures IsAsyncSegment(segment) ==> |segment| - |r| >= 2 && (r == [] || r[0] != '?')
    ensures IsAsyncSegment(segment) ==>
      r == segment[|segment| - |r|..] && forall i :: 0 <= i < |segment| - |r| ==> segment[i] == '?'
  {
    if IsAsyncSegment(segment) then TrimStartChar(segment, '?') else segment
  }

  /** The invocation a segment makes: the first token is the tag and the
      arguments are the tokens with every copy of the tag removed. No
      invocation when the tokenizer yields nothing (the source then faults). */
  function Interpret(segment: string, tokenize: string -> seq<string>): (r: Option<Invocation>)
    ensures r.None? <==> tokenize(TokenText(segment)) == []
    ensures r.Some? ==> r.value.tag == tokenize(TokenText(segment))[0]
    ensures r.Some? ==> (r.value.isAsync <==> IsAsyncSegment(segment))
    ensures r.Some? ==> r.value.tag !in r.value.args
    ensures r.Some? ==> forall a :: a in r.value.args <==> a in tokenize(TokenText(segment)) && a != r.value.tag
    ensures r.Some? ==>
      multiset(r.value.args) == multiset(tokenize(TokenText(segment)))[r.value.tag := 0]
  {
    var tokens := tokenize(TokenText(segment));
    if |tokens| == 0 then None
    else Some(Invocation(tokens[0], RemoveAll(tokens, tokens[0]), IsAsyncSegment(segment)))
  }

  /** The arguments are `tmp.Where(x => x != tmp[0])`: the tokens other than
      the tag, in token order. */
  lemma InterpretKeepsTokenOrder(segment: string, tokenize: string -> seq<string>)
    ensures var r := Interpret(segment, tokenize);
            r.Some? ==> r.value.args == Filter(tokenize(TokenText(segment)), NotEqualTo(r.value.tag))
  {
    var tokens := tokenize(TokenText(segment));
    if |tokens| > 0 {
      RemoveAllIsWhere(tokens, tokens[0]);
    }
  }

  /** `n` question marks. */
  function QuestionMarks(n: nat): (r: string)
    ensures |r| == n && forall i :: 0 <= i < n ==> r[i] == '?'
  {
    if n == 0 then [] else ['?'] + QuestionMarks(n - 1)
  }

  /** `TrimStart('?')` removes a whole run of leading question marks. */
  lemma {:induction false} TrimQuestionMarks(n: nat, text: string)
    requires text == [] || text[0] != '?'
    ensures TrimStartChar(QuestionMarks(n) + text, '?') == text
  {
    if n > 0 {
      var rest := QuestionMarks(n - 1) + text;
      assert QuestionMarks(n) + text == ['?'] + rest;
      assert (['?'] + rest)[1..] == rest;
      TrimQuestionMarks(n - 1, text);
    } else {
      assert QuestionMarks(n) == [];
    }
  }

  /** Prefixing a segment with two or more `?` changes only the execution
      mode: tag and arguments are those of the bare segment. */
  lemma AsyncMarkerOnlyChangesMode(n: nat, text: string, tokenize: string -> seq<string>)
    requires n >= 2
    requires text == [] || text[0] != '?'
    ensures Interpret(QuestionMarks(n) + text, tokenize)
         == match Interpret(text, tokenize)
            case None => None
            case Some(inv) => Some(inv.(isAsync := true))
  {
    var s := QuestionMarks(n) + text;
    assert s[..2] == AsyncMarker;
    assert !IsAsyncSegment(text) by {
      if |text| >= 2 {
        assert text[..2][0] == text[0];
      }
    }
    TrimQuestionMarks(n, text);
    assert TokenText(s) == text;
  }

  /** A single `?` is not a marker: the segment stays synchronous and the
      tokenizer sees the `?`. */
  lemma SingleQuestionMarkIsSync(text: string, tokenize: string -> seq<string>)
    requires text == [] || text[0] != '?'
    ensures !IsAsyncSegment("?" + text)
    ensures TokenText("?" + text) == "?" + text
  {
    if |text| > 0 {
      assert ("?" + text)[..2][1] == text[0];
    }
  }

  // ---------------------------------------------------------------------------
  // Planning a line
  // ---------------------------------------------------------------------------

  /** The `foreach` over the segments: each is interpreted and dispatched in
      turn until one yields no tokens. The plan is the longest prefix of
      segments that all yield an invocation. */
  function PlanSegments(segments: seq<string>, tokenize: string -> seq<string>): (p: LinePlan)
    ensures |p.calls| <= |segments|
    ensures forall k :: 0 <= k < |p.calls| ==> Interpret(segments[k], tokenize) == Some(p.calls[k])
    ensures p.faulted <==> |p.calls| < |segments|
    ensures p.faulted ==> Interpret(segments[|p.calls|], tokenize).None?
  {
    if |segments| == 0 then LinePlan([], false)
    else match Interpret(segments[0], tokenize)
      case None => LinePlan([], true)
      case Some(inv) =>
        var rest := PlanSegments(segments[1..], tokenize);
        LinePlan([inv] + rest.calls, rest.faulted)
  }

  /** The whole of lines 224-257 for one line read: a blank line does
      nothing; otherwise the trimmed line is split into segments and
      planned. */
  function PlanLine(line: string, tokenize: string -> seq<string>): (p: LinePlan)
    ensures IsBlank(line) ==> p == LinePlan([], false)
    ensures p.calls == [] && !p.faulted <==> IsBlank(line)
  {
    var trimmed := Trim(line);
    if trimmed == [] then LinePlan([], false) else PlanSegments(Segments(trimmed), tokenize)
  }

  /** The calls of a non-blank line are the invocations of its segments,
      in segment order, up to the first segment without tokens. */
  lemma PlanLineFollowsSegments(line: string, tokenize: string -> seq<string>)
    requires !IsBlank(line)
    ensures var segments := Segments(Trim(line));
            var p := PlanLine(line, tokenize);
            && (p.faulted <==> |p.calls| < |segments|)
            && (forall k :: 0 <= k < |p.calls| ==> Interpret(segments[k], tokenize) == Some(p.calls[k]))
            && (p.faulted ==> Interpret(segments[|p.calls|], tokenize).None?)
  {
  }

  /** No dispatched invocation ever has its own tag among its arguments. */
  lemma NoArgumentEqualsTag(line: string, tokenize: string -> seq<string>)
    ensures forall inv :: inv in PlanLine(line, tokenize).calls ==> inv.tag !in inv.args
  {
    var p := PlanLine(line, tokenize);
    forall inv | inv in p.calls
      ensures inv.tag !in inv.args
    {
      var k :| 0 <= k < |p.calls| && p.calls[k] == inv;
      assert Interpret(Segments(Trim(line))[k], tokenize) == Some(inv);
    }
  }

  /** Chaining composes: the plan of two runs of segments is the plan of the
      first, followed by the plan of the second unless the first faulted. */
  lemma {:induction false} PlanSegmentsConcat(a: seq<string>, b: seq<string>, tokenize: string -> seq<string>)
    ensures PlanSegments(a + b, tokenize)
         == var pa := PlanSegments(a, tokenize);
            if pa.faulted then pa
            else var pb := PlanSegments(b, tokenize); LinePlan(pa.calls + pb.calls, pb.faulted)
  {
    if |a| == 0 {
      assert a + b == b;
    } else {
      assert (a + b)[0] == a[0];
      assert (a + b)[1..] == a[1..] + b;
      PlanSegmentsConcat(a[1..], b, tokenize);
      match Interpret(a[0], tokenize)
      case None =>
      case Some(inv) =>
        var pa := PlanSegments(a[1..], tokenize);
        var pb := PlanSegments(b, tokenize);
        if !pa.faulted {
          assert [inv] + (pa.calls + pb.calls) == ([inv] + pa.calls) + pb.calls;
        }
    }
  }

  /** A string without `&` followed by one `&` holds no chain operator. */
  lemma NoOperatorBeforeLastAmpersand(s: string)
    requires '&' !in s
    ensures !Occurs(s + "&", ChainOperator)
  {
    var t := s + "&";
    forall j: nat
      ensures !OccursAt(t, ChainOperator, j)
    {
      if j + 2 <= |t| {
        assert s[j] in s;
        assert t[j..j + 2][0] == s[j] != '&' == ChainOperator[0];
      }
    }
  }

  /** A line of two commands, the second marked with `??`, splits into the
      first command with its trailing space and the marked command with its
      leading space. */
  lemma TwoCommandSegments(first: string, text: string)
    requires '&' !in first && '&' !in text
    ensures Segments(first + " && ??" + text) == [first + " ", " ??" + text]
  {
    var a, b := first + " ", " ??" + text;
    assert first + " && ??" + text == a + ChainOperator + b;
    assert a + ChainOperator[..1] == a + "&";
    NoOperatorBeforeLastAmpersand(a);
    SplitAtFirst(a, ChainOperator, b);
    AbsentFirstChar(b, ChainOperator);
    SplitAbsent(b, ChainOperator);
  }

  /** The shape of line both chain lemmas below talk about: `first && ??text`
      with no `&` inside, no marker on `first`, and no padding of its own. */
  ghost predicate PlainPair(first: string, text: string) {
    && '&' !in first && '&' !in text
    && first != [] && first[0] != '?' && !IsWhiteSpace(first[0]) && !IsWhiteSpace(first[|first| - 1])
    && text != [] && text[0] != '?' && !IsWhiteSpace(text[|text| - 1])
  }

  lemma PlainPairLine(first: string, text: string)
    requires PlainPair(first, text)
    ensures Trim(first + " && ??" + text) == first + " && ??" + text != []
    ensures Segments(Trim(first + " && ??" + text)) == [first + " ", " ??" + text]
  {
    var line := first + " && ??" + text;
    assert line == [] + line + [];
    assert line[0] == first[0] && line[|line| - 1] == text[|text| - 1];
    TrimOfPadded([], line, []);
    TwoCommandSegments(first, text);
  }

  /** As written, segments are not trimmed after the split: in
      `first && ??text` the second segment starts with a space, not with
      `??`, so no call of the line is asynchronous. */
  lemma UntrimmedSegmentStaysSync(first: string, text: string, tokenize: string -> seq<string>)
    requires PlainPair(first, text)
    ensures !IsAsyncSegment(" ??" + text)
    ensures var p := PlanLine(first + " && ??" + text, tokenize);
            forall k :: 0 <= k < |p.calls| ==> !p.calls[k].isAsync
  {
    var line := first + " && ??" + text;
    var segments := [first + " ", " ??" + text];
    PlainPairLine(first, text);
    PlanOfSegments(line, segments, tokenize);
    UntrimmedPairModes(first, text);
    SyncPair(segments[0], segments[1], tokenize);
  }

  /** Two unmarked segments plan two synchronous calls at most. */
  lemma SyncPair(a: string, b: string, tokenize: string -> seq<string>)
    requires !IsAsyncSegment(a) && !IsAsyncSegment(b)
    ensures var p := PlanSegments([a, b], tokenize);
            forall k :: 0 <= k < |p.calls| ==> !p.calls[k].isAsync
  {
    PlanSegmentsModes([a, b], tokenize);
  }

  lemma UntrimmedPairModes(first: string, text: string)
    requires PlainPair(first, text)
    ensures !IsAsyncSegment(first + " ") && !IsAsyncSegment(" ??" + text)
  {
    var a := first + " ";
    assert a[..2][0] == first[0];
    assert (" ??" + text)[..2][0] == ' ';
  }

  /** A planned call is asynchronous exactly when its segment starts with
      the marker. */
  lemma PlanSegmentsModes(segments: seq<string>, tokenize: string -> seq<string>)
    ensures var p := PlanSegments(segments, tokenize);
            forall k :: 0 <= k < |p.calls| ==> (p.calls[k].isAsync <==> IsAsyncSegment(segments[k]))
  {
    var p := PlanSegments(segments, tokenize);
    forall k | 0 <= k < |p.calls|
      ensures p.calls[k].isAsync <==> IsAsyncSegment(segments[k])
    {
      assert Interpret(segments[k], tokenize) == Some(p.calls[k]);
    }
  }

  // ---------------------------------------------------------------------------
  // Segments trimmed before the marker test
  // ---------------------------------------------------------------------------

  /** Every segment with its surrounding white space removed. */
  function TrimAll(segments: seq<string>): (r: seq<string>)
    ensures |r| == |segments|
    ensures forall k :: 0 <= k < |r| ==> r[k] == Trim(segments[k])
  {
    if |segments| == 0 then [] else [Trim(segments[0])] + TrimAll(segments[1..])
  }

  /** The planner as the chaining syntax means it: each segment is trimmed
      before the `??` test, so the space after `&&` does not hide the
      marker. */
  function PlanLineTrimmed(line: string, tokenize: string -> seq<string>): (p: LinePlan)
    ensures p.calls == [] && !p.faulted <==> IsBlank(line)
  {
    var trimmed := Trim(line);
    if trimmed == [] then LinePlan([], false) else PlanSegments(TrimAll(Segments(trimmed)), tokenize)
  }

  /** A marker surrounded by white space is recognised once the segment is
      trimmed: tag and arguments are those of the bare text. */
  lemma PaddedMarkerIsAsync(pre: string, n: nat, text: string, post: string, tokenize: string -> seq<string>)
    requires n >= 2 && AllWhiteSpace(pre) && AllWhiteSpace(post)
    requires text == [] || (text[0] != '?' && !IsWhiteSpace(text[|text| - 1]))
    ensures Interpret(Trim(pre + QuestionMarks(n) + text + post), tokenize)
         == match Interpret(text, tokenize)
            case None => None
            case Some(inv) => Some(inv.(isAsync := true))
  {
    var core := QuestionMarks(n) + text;
    assert core[0] == '?';
    assert core[|core| - 1] == (if text == [] then '?' else text[|text| - 1]);
    assert pre + QuestionMarks(n) + text + post == pre + core + post;
    TrimOfPadded(pre, core, post);
    AsyncMarkerOnlyChangesMode(n, text, tokenize);
  }

  lemma TrimmedPair(first: string, text: string)
    requires PlainPair(first, text)
    ensures TrimAll([first + " ", " ??" + text]) == [first, "??" + text]
    ensures !IsAsyncSegment(first) && IsAsyncSegment("??" + text)
  {
    var marked := "??" + text;
    assert first + " " == [] + first + " ";
    assert " ??" + text == " " + marked + [];
    assert marked[|marked| - 1] == text[|text| - 1];
    assert marked[..2] == AsyncMarker;
    assert !IsAsyncSegment(first) by {
      if |first| >= 2 { assert first[..2][0] == first[0]; }
    }
    TrimOfPadded([], first, " ");
    TrimOfPadded(" ", marked, []);
  }

  /** With trimmed segments, `first && ??text` runs `first` and launches
      `text`. */
  lemma TrimmedSegmentLaunches(first: string, text: string, tokenize: string -> seq<string>)
    requires PlainPair(first, text)
    ensures var p := PlanLineTrimmed(first + " && ??" + text, tokenize);
            forall k :: 0 <= k < |p.calls| ==> (p.calls[k].isAsync <==> k == 1)
  {
    var line := first + " && ??" + text;
    var segments := [first + " ", " ??" + text];
    PlainPairLine(first, text);
    PlanOfSegments(line, segments, tokenize);
    TrimmedPair(first, text);
    SyncThenAsync(first, "??" + text, tokenize);
  }

  /** An unmarked segment followed by a marked one plans a run and then a
      launch. */
  lemma SyncThenAsync(a: string, b: string, tokenize: string -> seq<string>)
    requires !IsAsyncSegment(a) && IsAsyncSegment(b)
    ensures var p := PlanSegments([a, b], tokenize);
            forall k :: 0 <= k < |p.calls| ==> (p.calls[k].isAsync <==> k == 1)
  {
    PlanSegmentsModes([a, b], tokenize);
  }

  /** The two planners on a line that needs no trimming, given its segments. */
  lemma PlanOfSegments(line: string, segments: seq<string>, tokenize: string -> seq<string>)
    requires Trim(line) == line != [] && Segments(line) == segments
    ensures PlanLine(line, tokenize) == PlanSegments(segments, tokenize)
    ensures PlanLineTrimmed(line, tokenize) == PlanSegments(TrimAll(segments), tokenize)
  {
  }

  // ---------------------------------------------------------------------------
  // Executing a plan
  // ---------------------------------------------------------------------------

  /** What the loop does with a plan: each synchronous call runs to
      completion before the next segment, each asynchronous call is launched
      and collected, and `Task.WaitAll` joins them after the last segment,
      unless a segment faulted first. */
  function Schedule(p: LinePlan): (r: seq<Step>)
    ensures |r| == |p.calls| + (if p.faulted then 0 else 1)
    ensures forall k :: 0 <= k < |p.calls| ==> !r[k].JoinAll? && r[k].call == p.calls[k]
    ensures forall k :: 0 <= k < |p.calls| ==> (r[k].Launch? <==> p.calls[k].isAsync)
    ensures JoinAll in r <==> !p.faulted
    ensures !p.faulted ==> r[|r| - 1] == JoinAll
  {
    var steps := seq(|p.calls|, k requires 0 <= k < |p.calls| =>
      if p.calls[k].isAsync then Launch(p.calls[k]) else Run(p.calls[k]));
    assert JoinAll !in steps;
    if p.faulted then steps else steps + [JoinAll]
  }

  /** The steps one console line makes: none for a blank line (the loop's
      `continue`), otherwise the schedule of its plan. */
  function LineSteps(line: string, tokenize: string -> seq<string>): (r: seq<Step>)
    ensures IsBlank(line) ==> r == []
  {
    if IsBlank(line) then [] else Schedule(PlanLine(line, tokenize))
  }

  /** Every step of a non-blank line other than the join belongs to the
      segment at the same position: it dispatches that segment's
      invocation, and it is a launch exactly when the segment starts with
      `??`. The join happens exactly when every segment yields tokens. */
  lemma LineStepsFollowSegments(line: string, tokenize: string -> seq<string>)
    requires !IsBlank(line)
    ensures var segments := Segments(Trim(line));
            var r := LineSteps(line, tokenize);
            && (forall k :: 0 <= k < |r| && !r[k].JoinAll? ==>
                  && k < |segments|
                  && Interpret(segments[k], tokenize) == Some(r[k].call)
                  && (r[k].Launch? <==> IsAsyncSegment(segments[k])))
            && (JoinAll in r <==> forall k :: 0 <= k < |segments| ==> tokenize(TokenText(segments[k])) != [])
  ensures var segments := Segments(Trim(line));
          var r := LineSteps(line, tokenize);
          && (JoinAll in r ==> |r| == |segments| + 1)
          && (JoinAll !in r ==> |r| < |segments| && tokenize(TokenText(segments[|r|])) == [])
  {
    var segments := Segments(Trim(line));
    assert LineSteps(line, tokenize) == Schedule(PlanSegments(segments, tokenize));
    ScheduleStepsFollowSegments(segments, tokenize);
    ScheduleJoinsWhenAllParse(segments, tokenize);
    ScheduleCountsSegments(segments, tokenize);
  }

  /** The steps before the join of a run of segments follow the segments. */
  lemma ScheduleStepsFollowSegments(segments: seq<string>, tokenize: string -> seq<string>)
    ensures var r := Schedule(PlanSegments(segments, tokenize));
            forall k :: 0 <= k < |r| && !r[k].JoinAll? ==>
              && k < |segments|
              && Interpret(segments[k], tokenize) == Some(r[k].call)
              && (r[k].Launch? <==> IsAsyncSegment(segments[k]))
  {
    var p := PlanSegments(segments, tokenize);
    var r := Schedule(p);
    forall k | 0 <= k < |r| && !r[k].JoinAll?
      ensures k < |p.calls|
    {
    }
  }

  /** A run of segments makes one step per segment and the join, or stops
      at the first segment without tokens, which gets no step. */
  lemma ScheduleCountsSegments(segments: seq<string>, tokenize: string -> seq<string>)
    ensures var r := Schedule(PlanSegments(segments, tokenize));
            && (JoinAll in r ==> |r| == |segments| + 1)
            && (JoinAll !in r ==> |r| < |segments| && tokenize(TokenText(segments[|r|])) == [])
  {
    var p := PlanSegments(segments, tokenize);
    if p.faulted {
      assert |Schedule(p)| == |p.calls|;
    }
  }

  /** A run of segments ends with the join exactly when every segment
      yields tokens. */
  lemma ScheduleJoinsWhenAllParse(segments: seq<string>, tokenize: string -> seq<string>)
    ensures JoinAll in Schedule(PlanSegments(segments, tokenize))
        <==> forall k :: 0 <= k < |segments| ==> tokenize(TokenText(segments[k])) != []
  {
    var p := PlanSegments(segments, tokenize);
    if !p.faulted {
      forall k | 0 <= k < |segments|
        ensures tokenize(TokenText(segments[k])) != []
      {
        assert Interpret(segments[k], tokenize) == Some(p.calls[k]);
      }
    }
  }

  /** The join waits for every launched call of the line, and nothing of the
      line happens after it. */
  lemma JoinComesLast(p: LinePlan)
    requires !p.faulted
    ensures forall k :: 0 <= k < |Schedule(p)| - 1 ==> !Schedule(p)[k].JoinAll?
    ensures forall k :: 0 <= k < |p.calls| && p.calls[k].isAsync ==> Launch(p.calls[k]) in Schedule(p)[..|Schedule(p)| - 1]
  {
    var r := Schedule(p);
    forall k | 0 <= k < |p.calls| && p.calls[k].isAsync
      ensures Launch(p.calls[k]) in r[..|r| - 1]
    {
      assert r[k] == Launch(p.calls[k]);
      assert r[..|r| - 1][k] == r[k];
    }
  }
}

=== FILE: options.dfy ===
/**
  The host's runtime options (Samarium.cs, lines 142-160) and the process
  command line the argument handlers read.
 */
module RuntimeOptions {
  import opened Wrappers

  /** The static option properties. A `None` stands for a C# `null`. */
  datatype Settings = Settings(
    autoLoadPlugins: bool,
    startupCommands: Option<seq<seq<string>>>,
    logDirectory: Option<string>,
    configDirectory: string,
    pluginsDirectory: string)

  /** The values the source starts with: `AutoLoadPlugins` and
      `StartupCommands` have no initialiser, so they are `false` and `null`. */
  const SourceDefaults: Settings :=
    Settings(false, None, Some("./logs/"), "./.conf/", "./plugins/")

  /** The evidently intended start: plugins load unless `--no-plugins` is
      given, and the startup command list exists before `--exec=` adds to it. */
  const InitialSettings: Settings :=
    SourceDefaults.(autoLoadPlugins := true, startupCommands := Some([]))

  /** The process command line. `Main` receives only `args`; the handlers
      read `Environment.GetCommandLineArgs()`, which starts with the program. */
  datatype CommandLine = CommandLine(program: string, args: seq<string>) {
    function All(): (r: seq<string>)
      ensures |r| == |args| + 1 && r[0] == program && r[1..] == args
    {
      [program] + args
    }
  }

  /** Where startup argument handling leaves the process. */
  datatype Boot =
    | Running(settings: Settings)
    | Exited(code: int)
    | Crashed(exception: string)
}

=== FILE: pluginlists.dfy ===
/**
  The plugin list files and the two `load` requests the host issues while
  booting (Samarium.cs, lines 342-381). File contents, the directory listing
  and `File.Exists` are inputs; the requests are the result.
 */
module PluginLists {
  import opened Wrappers
  import opened Seqs
  import opened Text

  /** A list line starting with this is a comment. */
  const CommentPrefix: string := "#"

  /** Placeholder in `plugins.include` lines for the plugin directory. */
  const PluginDirVariable: string := "$(plugin_dir)"

  // ---------------------------------------------------------------------------
  // Reading a list file line by line
  // ---------------------------------------------------------------------------

  /** `StreamReader.ReadLine` ends a line at a carriage return, a line feed,
      or the pair of them. */
  predicate IsLineBreak(c: char) {
    c == '\r' || c == '\n'
  }

  ghost predicate NoBreaks(line: string) {
    forall j :: 0 <= j < |line| ==> !IsLineBreak(line[j])
  }

  /** The lines `while (Peek() != -1) ReadLine()` yields: nothing for an
      empty text, and no empty line after a final terminator. */
  function ReadLines(text: string): (r: seq<string>)
    ensures r == [] <==> text == []
    ensures forall k :: 0 <= k < |r| ==> NoBreaks(r[k])
    decreases |text|
  {
    if text == [] then []
    else match FirstWhere(text, IsLineBreak)
      case None => [text]
      case Some(i) =>
        var skip := if text[i] == '\r' && i + 1 < |text| && text[i + 1] == '\n' then 2 else 1;
        [text[..i]] + ReadLines(text[i + skip..])
  }

  /** A text made of the given lines, each followed by `eol`. */
  function Terminated(lines: seq<string>, eol: string): string {
    if |lines| == 0 then [] else lines[0] + eol + Terminated(lines[1..], eol)
  }

  /** The first line break of `line + eol + rest` is the start of `eol`. */
  lemma FirstBreakAfter(line: string, eol: string, rest: string)
    requires NoBreaks(line) && |eol| > 0 && IsLineBreak(eol[0])
    ensures FirstWhere(line + eol + rest, IsLineBreak) == Some(|line|)
  {
    var text := line + eol + rest;
    var r := FirstWhere(text, IsLineBreak);
    assert IsLineBreak(text[|line|]);
    assert r.Some?;
    assert forall j :: 0 <= j < |line| ==> text[j] == line[j];
  }

  /** One line and its terminator are consumed together, provided a lone
      carriage return is not followed by a line feed. */
  lemma ReadLinesStep(line: string, eol: string, rest: string)
    requires eol == "\n" || eol == "\r\n" || eol == "\r"
    requires NoBreaks(line)
    requires eol == "\r" && rest != [] ==> rest[0] != '\n'
    ensures ReadLines(line + eol + rest) == [line] + ReadLines(rest)
  {
    var text := line + eol + rest;
    var i := |line|;
    FirstBreakAfter(line, eol, rest);
    assert text[..i] == line;
    assert text[i] == eol[0];
    if |eol| == 1 && rest != [] {
      assert text[i + 1] == rest[0];
    }
    assert text[i + |eol|..] == rest;
  }

  /** A text written line by line with a terminator other than a line feed
      does not start with a line feed. */
  lemma NoLeadingLineFeed(lines: seq<string>, eol: string)
    requires |eol| > 0 && eol[0] != '\n'
    requires forall k :: 0 <= k < |lines| ==> NoBreaks(lines[k])
    requires Terminated(lines, eol) != []
    ensures Terminated(lines, eol)[0] != '\n'
  {
    var text := Terminated(lines, eol);
    assert text == lines[0] + eol + Terminated(lines[1..], eol);
    if |lines[0]| > 0 {
      assert text[0] == lines[0][0];
    } else {
      assert text[0] == eol[0];
    }
  }

  /** Reading back a text written line by line, with any of the three
      terminators, gives the lines again. */
  lemma {:induction false} ReadLinesTerminated(lines: seq<string>, eol: string)
    requires eol == "\n" || eol == "\r\n" || eol == "\r"
    requires forall k :: 0 <= k < |lines| ==> NoBreaks(lines[k])
    ensures ReadLines(Terminated(lines, eol)) == lines
  {
    if |lines| > 0 {
      var rest := Terminated(lines[1..], eol);
      assert Terminated(lines, eol) == lines[0] + eol + rest;
      if eol == "\r" && rest != [] {
        NoLeadingLineFeed(lines[1..], eol);
      }
      ReadLinesStep(lines[0], eol, rest);
      ReadLinesTerminated(lines[1..], eol);
      assert lines == [lines[0]] + lines[1..];
    }
  }

  // ---------------------------------------------------------------------------
  // List entries
  // ---------------------------------------------------------------------------

  /** A line that is not a comment (`StartsWith("#")`). */
  predicate IsEntry(line: string) {
    !StartsWith(line, CommentPrefix)
  }

  /** The lines kept from a list file, in file order. */
  function ListEntries(lines: seq<string>): (r: seq<string>)
    ensures forall x :: x in r <==> x in lines && !(|x| > 0 && x[0] == '#')
  {
    Filter(lines, IsEntry)
  }

  /** Comments are dropped line by line: the entries of two parts of a file
      are the entries of each part, in order. */
  lemma ListEntriesConcat(a: seq<string>, b: seq<string>)
    ensures ListEntries(a + b) == ListEntries(a) + ListEntries(b)
  {
    FilterConcat(a, b, IsEntry);
  }

  /** A list file with only comment lines has no entries. */
  lemma {:induction false} CommentsOnly(lines: seq<string>)
    requires forall k :: 0 <= k < |lines| ==> |lines[k]| > 0 && lines[k][0] == '#'
    ensures ListEntries(lines) == []
  {
    if |lines| > 0 {
      assert lines == [lines[0]] + lines[1..];
      ListEntriesConcat([lines[0]], lines[1..]);
      assert !IsEntry(lines[0]);
      CommentsOnly(lines[1..]);
    }
  }

  /** The entries of a list file; a missing file is created empty, so it has
      none. */
  function ReadList(file: Option<string>): (r: seq<string>)
    ensures file.None? ==> r == []
    ensures forall k :: 0 <= k < |r| ==> NoBreaks(r[k]) && IsEntry(r[k])
  {
    match file
    case None => []
    case Some(text) => ListEntries(ReadLines(text))
  }

  /** A file written line by line yields exactly its non-comment lines. */
  lemma ReadListOfLines(lines: seq<string>, eol: string)
    requires eol == "\n" || eol == "\r\n" || eol == "\r"
    requires forall k :: 0 <= k < |lines| ==> NoBreaks(lines[k])
    ensures forall x :: x in ReadList(Some(Terminated(lines, eol))) <==> x in lines && IsEntry(x)
    ensures ReadList(Some(Terminated(lines, eol))) == ListEntries(lines)
  {
    ReadLinesTerminated(lines, eol);
  }

  /** A file holding one unterminated entry line lists just that line. */
  lemma ReadListOneLine(line: string)
    requires line != [] && NoBreaks(line) && IsEntry(line)
    ensures ReadList(Some(line)) == [line]
  {
    assert FirstWhere(line, IsLineBreak).None?;
    assert ReadLines(line) == [line];
    assert Filter([line], IsEntry) == [line] + Filter([line][1..], IsEntry);
  }

  // ---------------------------------------------------------------------------
  // Expanding `$(plugin_dir)`
  // ---------------------------------------------------------------------------

  /** `line.Replace("$(plugin_dir)", dir)`. */
  function ExpandPluginDir(line: string, dir: string): (r: string)
    ensures !Occurs(line, PluginDirVariable) ==> r == line
  {
    Replace(line, PluginDirVariable, dir)
  }

  /** Text shorter than a pattern cannot contain it. */
  lemma ShorterThanPattern(s: string, d: string)
    requires |s| < |d|
    ensures !Occurs(s, d)
  {
    forall j: nat
      ensures !OccursAt(s, d, j)
    {
    }
  }

  /** A leading placeholder becomes the plugin directory; the rest of the
      line, free of placeholders, is kept. */
  lemma ExpandLeadingVariable(dir: string, rest: string)
    requires !Occurs(rest, PluginDirVariable)
    ensures ExpandPluginDir(PluginDirVariable + rest, dir) == dir + rest
  {
    var v := PluginDirVariable;
    ShorterThanPattern([] + v[..|v| - 1], v);
    ReplaceFirst([], v, rest, dir);
    assert [] + v + rest == v + rest;
  }

  /** A placeholder that the directory replaces by itself changes nothing. */
  lemma ExpandWithPlaceholderDir(line: string)
    ensures ExpandPluginDir(line, PluginDirVariable) == line
  {
    ReplaceSelf(line, PluginDirVariable);
  }

  /** Every include entry with its placeholders expanded, in order. */
  function ExpandAll(entries: seq<string>, dir: string): (r: seq<string>)
    ensures |r| == |entries|
    ensures forall k :: 0 <= k < |r| ==> r[k] == ExpandPluginDir(entries[k], dir)
  {
    if |entries| == 0 then [] else [ExpandPluginDir(entries[0], dir)] + ExpandAll(entries[1..], dir)
  }

  /** Entries without a placeholder are passed through unchanged. */
  lemma {:induction false} ExpandAllPlain(entries: seq<string>, dir: string)
    requires forall k :: 0 <= k < |entries| ==> !Occurs(entries[k], PluginDirVariable)
    ensures ExpandAll(entries, dir) == entries
  {
    if |entries| > 0 {
      ExpandAllPlain(entries[1..], dir);
    }
  }

  // ---------------------------------------------------------------------------
  // The load requests
  // ---------------------------------------------------------------------------

  /** Line 372-373: the plugin directory's DLL paths not named, exactly, by an
      ignore entry. */
  function InitialLoadArgs(dlls: seq<string>, ignore: seq<string>): (r: seq<string>)
    ensures forall x :: x in r <==> x in dlls && x !in ignore
  {
    Filter(dlls, x => x !in ignore)
  }

  /** An ignore list without entries leaves every DLL in the request. */
  lemma NothingIgnored(dlls: seq<string>)
    ensures InitialLoadArgs(dlls, []) == dlls
  {
    FilterAll(dlls, x => x !in []);
  }

  /** A DLL path starting with `#` can never be ignored: the only line that
      could name it is read as a comment. */
  lemma CommentCannotIgnore(dlls: seq<string>, ignoreLines: seq<string>, x: string)
    requires x in dlls && |x| > 0 && x[0] == '#'
    ensures x in InitialLoadArgs(dlls, ListEntries(ignoreLines))
  {
    assert !IsEntry(x);
  }

  /** Line 375 and 380: the include entries that are not blank (after
      `Trim`) and name an existing file. The entries themselves are passed on
      untrimmed. */
  function IncludeLoadArgs(entries: seq<string>, fileExists: string -> bool): (r: seq<string>)
    ensures forall x :: x in r <==> x in entries && !IsBlank(x) && fileExists(x)
  {
    Filter(Filter(entries, x => !IsBlank(x)), fileExists)
  }

  /** What `LoadPlugins` asks of the `load` command: the initial request, and
      the include request unless the method warned and returned early. */
  datatype BootLoad = BootLoad(initial: seq<string>, included: Option<seq<string>>)

  /** Lines 342-381. `loaded` is how many results the first `load` reports;
      `fileExists` stands for `File.Exists`. */
  function LoadPlugins(
    dir: string,
    ignoreFile: Option<string>,
    includeFile: Option<string>,
    dlls: seq<string>,
    loaded: seq<string> -> nat,
    fileExists: string -> bool): (r: BootLoad)
    ensures forall x :: x in r.initial <==> x in dlls && x !in ReadList(ignoreFile)
    ensures r.included.None?
      <==> (forall x :: x in ExpandAll(ReadList(includeFile), dir) ==> IsBlank(x)) && loaded(r.initial) == 0
    ensures r.included.Some? ==>
      forall x :: x in r.included.value
        <==> x in ExpandAll(ReadList(includeFile), dir) && !IsBlank(x) && fileExists(x)
  {
    var initial := InitialLoadArgs(dlls, ReadList(ignoreFile));
    var expanded := ExpandAll(ReadList(includeFile), dir);
    var candidates := Filter(expanded, x => !IsBlank(x));
    if |candidates| == 0 && loaded(initial) == 0 then BootLoad(initial, None)
    else BootLoad(initial, Some(IncludeLoadArgs(expanded, fileExists)))
  }

  /** With no list files and an empty directory, nothing is requested but the
      empty initial load, after which the host only warns. */
  lemma NothingToLoad(dir: string, loaded: seq<string> -> nat, fileExists: string -> bool)
    requires loaded([]) == 0
    ensures LoadPlugins(dir, None, None, [], loaded, fileExists) == BootLoad([], None)
  {
  }

  /** An include file that holds only comments counts as empty: if the first
      load found nothing, the include request is never made. */
  lemma CommentedIncludeWarns(dir: string, ignoreFile: Option<string>, lines: seq<string>,
                              dlls: seq<string>, loaded: seq<string> -> nat, fileExists: string -> bool)
    requires forall k :: 0 <= k < |lines| ==> |lines[k]| > 0 && lines[k][0] == '#' && NoBreaks(lines[k])
    requires loaded(InitialLoadArgs(dlls, ReadList(ignoreFile))) == 0
    ensures LoadPlugins(dir, ignoreFile, Some(Terminated(lines, "\n")), dlls, loaded, fileExists).included.None?
  {
    ReadListOfLines(lines, "\n");
    CommentsOnly(lines);
  }
}

=== FILE: seqs.dfy ===
/** LINQ-style sequence helpers used by the host (`Where`, removal of a value). */
module Seqs {
  import opened Wrappers

  /** `xs.Where(keep)`: the elements of `s` that satisfy `keep`, in order. */
  function Filter<T(!new)>(s: seq<T>, keep: T -> bool): (r: seq<T>)
    ensures |r| <= |s|
    ensures forall x :: x in r <==> x in s && keep(x)
    ensures forall k :: 0 <= k < |r| ==> keep(r[k])
  {
    if |s| == 0 then []
    else if keep(s[0]) then [s[0]] + Filter(s[1..], keep)
    else Filter(s[1..], keep)
  }

  /** Filtering commutes with concatenation, so the survivors keep their relative order. */
  lemma {:induction false} FilterConcat<T(!new)>(a: seq<T>, b: seq<T>, keep: T -> bool)
    ensures Filter(a + b, keep) == Filter(a, keep) + Filter(b, keep)
  {
    if |a| == 0 {
      assert a + b == b;
    } else {
      assert (a + b)[1..] == a[1..] + b;
      FilterConcat(a[1..], b, keep);
    }
  }

  /** Filtering with a predicate every element satisfies changes nothing. */
  lemma {:induction false} FilterAll<T(!new)>(s: seq<T>, keep: T -> bool)
    requires forall k :: 0 <= k < |s| ==> keep(s[k])
    ensures Filter(s, keep) == s
  {
    if |s| > 0 {
      FilterAll(s[1..], keep);
    }
  }

  /** `xs.Where(x => x != v)`: every occurrence of `v` removed, everything else kept. */
  function RemoveAll<T(==,!new)>(s: seq<T>, v: T): (r: seq<T>)
    ensures v !in r
    ensures forall x :: x in r <==> x in s && x != v
    ensures multiset(r) == multiset(s)[v := 0]
  {
    if |s| == 0 then []
    else
      assert s == [s[0]] + s[1..];
      if s[0] == v then RemoveAll(s[1..], v) else [s[0]] + RemoveAll(s[1..], v)
  }

  /** The `Where` predicate `x => x != v`. */
  function NotEqualTo<T(==)>(v: T): T -> bool {
    x => x != v
  }

  /** Removing every copy of `v` is `Where(x => x != v)`: the kept elements
      stay in their order. */
  lemma {:induction false} RemoveAllIsWhere<T(!new)>(s: seq<T>, v: T)
    ensures RemoveAll(s, v) == Filter(s, NotEqualTo(v))
  {
    if |s| > 0 {
      RemoveAllIsWhere(s[1..], v);
    }
  }

  /** Removal commutes with concatenation, so the kept elements stay in their order. */
  lemma {:induction false} RemoveAllConcat<T(!new)>(a: seq<T>, b: seq<T>, v: T)
    ensures RemoveAll(a + b, v) == RemoveAll(a, v) + RemoveAll(b, v)
  {
    if |a| == 0 {
      assert a + b == b;
    } else {
      assert (a + b)[1..] == a[1..] + b;
      RemoveAllConcat(a[1..], b, v);
    }
  }

  /** The first position at or after `k` whose element satisfies `p`. */
  function FirstWhereFrom<T>(s: seq<T>, p: T -> bool, k: nat): (r: Option<nat>)
    requires k <= |s|
    ensures r.Some? ==> k <= r.value < |s| && p(s[r.value])
    ensures r.Some? ==> forall j :: k <= j < r.value ==> !p(s[j])
    ensures r.None? ==> forall j :: k <= j < |s| ==> !p(s[j])
    decreases |s| - k
  {
    if k == |s| then None
    else if p(s[k]) then Some(k)
    else FirstWhereFrom(s, p, k + 1)
  }

  /** `s.FirstOrDefault(p)`, as a position: the first element that satisfies `p`. */
  function FirstWhere<T>(s: seq<T>, p: T -> bool): (r: Option<nat>)
    ensures r.Some? ==> r.value < |s| && p(s[r.value])
    ensures r.Some? ==> forall j :: 0 <= j < r.value ==> !p(s[j])
    ensures r.None? <==> forall j :: 0 <= j < |s| ==> !p(s[j])
  {
    FirstWhereFrom(s, p, 0)
  }

  /** Number of occurrences of `v` in `s`. */
  function Count<T(==)>(s: seq<T>, v: T): nat {
    multiset(s)[v]
  }

  /** `n` copies of `s`, one after the other. */
  function Repeat<T>(s: seq<T>, n: nat): (r: seq<T>)
    ensures |r| == n * |s|
  {
    if n == 0 then [] else s + Repeat(s, n - 1)
  }

  /** Two copies are the sequence followed by itself. */
  lemma RepeatTwice<T>(s: seq<T>)
    ensures Repeat(s, 2) == s + s
  {
    assert Repeat(s, 2) == s + (s + Repeat(s, 0));
  }

  /** In a sequence of copies of `v`, every element counts. */
  lemma {:induction false} CountAll<T>(s: seq<T>, v: T)
    requires forall k :: 0 <= k < |s| ==> s[k] == v
    ensures Count(s, v) == |s|
  {
    if |s| > 0 {
      assert s == [s[0]] + s[1..];
      assert multiset(s) == multiset([s[0]]) + multiset(s[1..]);
      CountAll(s[1..], v);
    }
  }
}

=== FILE: startup.dfy ===
/**
  Startup argument handling in `Main` (Samarium.cs, lines 34-42 and
  174-180): every command-line argument is cut at its first `=`, the
  first entry of the `Arguments` table whose flag text starts with that
  key names the handler to run, and arguments without a match are skipped.
 */
module StartupArgs {
  import opened Wrappers
  import opened Text
  import opened Seqs
  import opened RuntimeOptions
  import opened ArgsImpl

  datatype Flag = Help | NoPlugins | AutoExec | Init | LogDir | ConfigDir | PluginDir

  /** The code the handlers reach that is not part of this model:
      `TrimMatchingQuotes`, and the bodies of `SetConfigDir` and
      `SetPluginDir`. Following their table descriptions, each directory
      handler is taken to set its own directory, computed from the command
      line and the current value, and to touch nothing else. */
  datatype Host = Host(
    trimQuotes: string -> string,
    configDir: (CommandLine, string) -> string,
    pluginDir: (CommandLine, string) -> string)

  /** One row of the `Arguments` table. */
  datatype ArgumentEntry = ArgumentEntry(argument: string, description: string, handler: Flag)

  const Arguments: seq<ArgumentEntry> := [
    ArgumentEntry("--help", "Prints this help menu.", Help),
    ArgumentEntry("--no-plugins", "Stops automatic plugin loading. Useful for debugging.", NoPlugins),
    ArgumentEntry("--exec=\"<cmd>\"", "Executes a command immediately after successful booting.", AutoExec),
    ArgumentEntry("--init", "Re-initialization \"wizard\"", Init),
    ArgumentEntry("--logdir=\"<dir>\"", "Set the logging directory for this instance.", LogDir),
    ArgumentEntry("--cnfdir=\"<dir>\"", "Set the config directory for this instance.", ConfigDir),
    ArgumentEntry("--plugindir=\"<dir>\"", "Set the plugins directory for this instance.", PluginDir)
  ]

  // ---------------------------------------------------------------------------
  // Matching one argument
  // ---------------------------------------------------------------------------

  /** `arg.Split('=')[0]`: the argument up to its first `=`, or all of it. */
  function ArgumentKey(arg: string): (r: string)
    ensures StartsWith(arg, r)
    ensures '=' !in r
    ensures |r| < |arg| ==> arg[|r|] == '='
  {
    OccursSingle(arg, '=');
    match IndexOf(arg, "=")
    case None =>
      assert Split(arg, "=") == [arg];
      Split(arg, "=")[0]
    case Some(i) =>
      assert Split(arg, "=")[0] == arg[..i];
      Split(arg, "=")[0]
  }

  /** The key of `prefix=rest` is `prefix` when `prefix` has no `=`. */
  lemma KeyBeforeEquals(prefix: string, rest: string)
    requires '=' !in prefix
    ensures ArgumentKey(prefix + "=" + rest) == prefix
  {
    OccursSingle(prefix, '=');
    assert prefix + "="[..0] == prefix;
    SplitAtFirst(prefix, "=", rest);
  }

  /** The key of an argument without `=` is the whole argument. */
  lemma KeyWithoutEquals(arg: string)
    requires '=' !in arg
    ensures ArgumentKey(arg) == arg
  {
    OccursSingle(arg, '=');
    SplitAbsent(arg, "=");
  }

  predicate EntryMatches(entry: ArgumentEntry, key: string) {
    StartsWith(entry.argument, key)
  }

  /** `Arguments.FirstOrDefault(x => x.Argument.StartsWith(key))`: the first
      table row, in table order, whose flag text starts with the key. */
  function Resolve(arg: string): (r: Option<nat>)
    ensures r.Some? ==> r.value < |Arguments| && EntryMatches(Arguments[r.value], ArgumentKey(arg))
    ensures r.Some? ==> forall j :: 0 <= j < r.value ==> !EntryMatches(Arguments[j], ArgumentKey(arg))
    ensures r.None? <==> forall j :: 0 <= j < |Arguments| ==> !EntryMatches(Arguments[j], ArgumentKey(arg))
  {
    var key := ArgumentKey(arg);
    FirstWhere(Arguments, (e: ArgumentEntry) => EntryMatches(e, key))
  }

  /** The handler an argument runs, if any. */
  function HandlerOf(arg: string): Option<Flag> {
    match Resolve(arg)
    case None => None
    case Some(i) => Some(Arguments[i].handler)
  }

  /** Reading off the handler from the first matching row. */
  lemma ResolvesTo(arg: string, i: nat)
    requires i < |Arguments| && EntryMatches(Arguments[i], ArgumentKey(arg))
    requires forall j :: 0 <= j < i ==> !EntryMatches(Arguments[j], ArgumentKey(arg))
    ensures HandlerOf(arg) == Some(Arguments[i].handler)
  {
  }

  /** An argument that starts with `--log`, cut at `=`, selects `SetLogDir`:
      the text after `=` plays no part in the choice. */
  lemma AbbreviationSelectsLogDir(rest: string)
    ensures HandlerOf("--log=" + rest) == Some(LogDir)
  {
    KeyBeforeEquals("--log", rest);
    assert "--log=" + rest == "--log" + "=" + rest;
    assert Arguments[4].argument[..5] == "--log";
    assert Arguments[0].argument[..5] == "--hel";
    assert Arguments[1].argument[..5] == "--no-";
    assert Arguments[2].argument[..5] == "--exe";
    assert Arguments[3].argument[..5] == "--ini";
    ResolvesTo("--log=" + rest, 4);
  }

  /** An argument `--exec=...` selects `SetAutoExec`. */
  lemma ExecSelectsAutoExec(rest: string)
    ensures HandlerOf("--exec=" + rest) == Some(AutoExec)
  {
    KeyBeforeEquals("--exec", rest);
    assert "--exec=" + rest == "--exec" + "=" + rest;
    assert Arguments[2].argument[..6] == "--exec";
    assert Arguments[0].argument[..6] == "--help";
    assert Arguments[1].argument[..6] == "--no-p";
    ResolvesTo("--exec=" + rest, 2);
  }

  /** `--no-plugins` selects `SetNoPlugins`. */
  /** An argument `--plugindir=...` selects `SetPluginDir`: no earlier row
      starts with `--plugindir`. */
  lemma PluginDirSelectsSetPluginDir(rest: string)
    ensures HandlerOf("--plugindir=" + rest) == Some(PluginDir)
  {
    KeyBeforeEquals("--plugindir", rest);
    assert "--plugindir=" + rest == "--plugindir" + "=" + rest;
    assert Arguments[6].argument[..11] == "--plugindir";
    assert Arguments[1].argument[..11] == "--no-plugin";
    assert Arguments[2].argument[..11] == "--exec=\"<cm";
    assert Arguments[4].argument[..11] == "--logdir=\"<";
    assert Arguments[5].argument[..11] == "--cnfdir=\"<";
    ResolvesTo("--plugindir=" + rest, 6);
  }

  lemma NoPluginsSelectsSetNoPlugins()
    ensures HandlerOf("--no-plugins") == Some(NoPlugins)
  {
    KeyWithoutEquals("--no-plugins");
    assert Arguments[1].argument[..12] == "--no-plugins";
    assert Arguments[0].argument != "--no-plugins";
    ResolvesTo("--no-plugins", 1);
  }

  /** `--help` selects `PrintHelp`. */
  lemma HelpSelectsPrintHelp()
    ensures HandlerOf("--help") == Some(Help)
  {
    KeyWithoutEquals("--help");
    assert Arguments[0].argument[..6] == "--help";
    ResolvesTo("--help", 0);
  }

  /** The empty argument is a prefix of every flag, so it selects the first
      row, `--help`. */
  lemma EmptyArgumentSelectsHelp()
    ensures HandlerOf("") == Some(Help)
  {
    KeyWithoutEquals("");
    assert Arguments[0].argument[..0] == "";
    ResolvesTo("", 0);
  }

  /** Every flag starts with `--`, so an argument such as `-x` matches none. */
  lemma SingleDashMatchesNothing()
    ensures HandlerOf("-x") == None
  {
    KeyWithoutEquals("-x");
    forall j | 0 <= j < |Arguments|
      ensures !EntryMatches(Arguments[j], "-x")
    {
      assert Arguments[j].argument[1] == '-';
    }
  }

  // ---------------------------------------------------------------------------
  // The argument loop
  // ---------------------------------------------------------------------------

  /** The handlers the `foreach` over `args` runs, in argument order;
      arguments without a matching row contribute nothing. */
  function HandlersFor(args: seq<string>): (r: seq<Flag>)
    ensures |r| <= |args|
    ensures forall f :: f in r <==> exists i :: 0 <= i < |args| && HandlerOf(args[i]) == Some(f)
  {
    if |args| == 0 then [] else Handled(args[0]) + HandlersFor(args[1..])
  }

  /** The handlers one argument runs: none or one. */
  function Handled(arg: string): (r: seq<Flag>)
    ensures |r| <= 1
  {
    match HandlerOf(arg)
    case None => []
    case Some(f) => [f]
  }

  lemma {:induction false} HandlersForConcat(a: seq<string>, b: seq<string>)
    ensures HandlersFor(a + b) == HandlersFor(a) + HandlersFor(b)
  {
    if |a| == 0 {
      assert a + b == b;
    } else {
      assert (a + b)[0] == a[0];
      assert (a + b)[1..] == a[1..] + b;
      HandlersForConcat(a[1..], b);
      assert HandlersFor(a + b) == Handled(a[0]) + (HandlersFor(a[1..]) + HandlersFor(b));
    }
  }

  /** What one handler does to the process. `PrintHelp` ends with
      `Environment.Exit(0)`; `InitWizard` only draws on the console;
      `SetConfigDir` and `SetPluginDir` are the host's directory handlers. */
  function ApplyFlag(f: Flag, cmd: CommandLine, host: Host, s: Settings): (r: Boot)
    ensures f == Help <==> r.Exited?
    ensures r.Crashed? ==> f == AutoExec && s.startupCommands.None?
    ensures r.Running? && f !in {NoPlugins, AutoExec, LogDir, ConfigDir, PluginDir} ==> r.settings == s
    ensures r.Running? && f != AutoExec ==> r.settings.startupCommands == s.startupCommands
  {
    match f
    case Help => Exited(0)
    case NoPlugins => Running(SetNoPlugins(s))
    case AutoExec => SetAutoExec(cmd, host.trimQuotes, s)
    case Init => Running(s)
    case LogDir => Running(SetLogDir(cmd, s))
    case ConfigDir => Running(s.(configDirectory := host.configDir(cmd, s.configDirectory)))
    case PluginDir => Running(s.(pluginsDirectory := host.pluginDir(cmd, s.pluginsDirectory)))
  }

  /** Runs the handlers in order until one ends the process. */
  function ApplyFlags(fs: seq<Flag>, cmd: CommandLine, host: Host, s: Settings): (r: Boot)
    ensures r.Exited? ==> r.code == 0 && Help in fs
    ensures r.Crashed? ==> AutoExec in fs && s.startupCommands.None?
    ensures Help !in fs && AutoExec !in fs ==> r.Running?
  {
    if |fs| == 0 then Running(s)
    else match ApplyFlag(fs[0], cmd, host, s)
      case Running(next) => ApplyFlags(fs[1..], cmd, host, next)
      case stopped => stopped
  }

  /** Lines 174-180 from a given start state. */
  function ParseArguments(cmd: CommandLine, host: Host, init: Settings): (r: Boot)
    ensures r.Exited? ==> r.code == 0 && exists i :: 0 <= i < |cmd.args| && HandlerOf(cmd.args[i]) == Some(Help)
    ensures r.Crashed? ==> init.startupCommands.None?
    ensures r.Crashed? ==> exists i :: 0 <= i < |cmd.args| && HandlerOf(cmd.args[i]) == Some(AutoExec)
  {
    ApplyFlags(HandlersFor(cmd.args), cmd, host, init)
  }

  /** A single argument with a handler runs exactly that handler. */
  lemma SingleArgument(program: string, arg: string, f: Flag, host: Host, s: Settings)
    requires HandlerOf(arg) == Some(f)
    ensures HandlersFor([arg]) == [f]
    ensures ParseArguments(CommandLine(program, [arg]), host, s)
         == ApplyFlag(f, CommandLine(program, [arg]), host, s)
  {
    assert Handled(arg) == [f];
    assert [arg][1..] == [];
    assert HandlersFor([arg]) == [f] + HandlersFor([]);
    var cmd := CommandLine(program, [arg]);
    assert [f][1..] == [];
    match ApplyFlag(f, cmd, host, s)
    case Running(next) =>
      assert ApplyFlags([f][1..], cmd, host, next) == Running(next);
    case _ =>
  }

  /** Handlers run strictly in sequence: the second run starts from where the
      first left the settings, and nothing runs after the process ended. */
  lemma {:induction false} ApplyFlagsConcat(a: seq<Flag>, b: seq<Flag>, cmd: CommandLine, host: Host, s: Settings)
    ensures ApplyFlags(a + b, cmd, host, s)
         == match ApplyFlags(a, cmd, host, s)
            case Running(next) => ApplyFlags(b, cmd, host, next)
            case stopped => stopped
  {
    if |a| == 0 {
      assert a + b == b;
    } else {
      assert (a + b)[0] == a[0];
      assert (a + b)[1..] == a[1..] + b;
      match ApplyFlag(a[0], cmd, host, s)
      case Running(next) => ApplyFlagsConcat(a[1..], b, cmd, host, next);
      case _ =>
    }
  }

  /** Arguments are handled in argument order. */
  lemma ParseArgumentsInOrder(program: string, a: seq<string>, b: seq<string>, host: Host, init: Settings)
    ensures ParseArguments(CommandLine(program, a + b), host, init)
         == match ApplyFlags(HandlersFor(a), CommandLine(program, a + b), host, init)
            case Running(next) => ApplyFlags(HandlersFor(b), CommandLine(program, a + b), host, next)
            case stopped => stopped
  {
    HandlersForConcat(a, b);
    ApplyFlagsConcat(HandlersFor(a), HandlersFor(b), CommandLine(program, a + b), host, init);
  }

  /** Without `--help`, the loop runs to its end unless an exec handler
      meets a missing startup list; the list exists afterwards exactly when
      it existed before. */
  lemma {:induction false} RunsWithoutHelp(fs: seq<Flag>, cmd: CommandLine, host: Host, s: Settings)
    requires Help !in fs && (s.startupCommands.Some? || AutoExec !in fs)
    ensures ApplyFlags(fs, cmd, host, s).Running?
    ensures ApplyFlags(fs, cmd, host, s).settings.startupCommands.Some? <==> s.startupCommands.Some?
  {
    if |fs| > 0 {
      assert fs[0] in fs;
      assert forall f :: f in fs[1..] ==> f in fs;
      var next := ApplyFlag(fs[0], cmd, host, s);
      assert next.Running? && (next.settings.startupCommands.Some? <==> s.startupCommands.Some?);
      RunsWithoutHelp(fs[1..], cmd, host, next.settings);
    }
  }

  /** Exec-only runs touch nothing but the startup command list. */
  lemma {:induction false} RunsOnlyChangeFields(fs: seq<Flag>, cmd: CommandLine, host: Host, s: Settings)
    requires forall k :: 0 <= k < |fs| ==> fs[k] == AutoExec
    requires s.startupCommands.Some?
    ensures ApplyFlags(fs, cmd, host, s).Running?
    ensures ApplyFlags(fs, cmd, host, s).settings.(startupCommands := s.startupCommands) == s
  {
    if |fs| > 0 {
      var next := ApplyFlag(fs[0], cmd, host, s);
      RunsOnlyChangeFields(fs[1..], cmd, host, next.settings);
    }
  }

  /** A help flag ends the process with exit code 0; the handlers after it
      never run. */
  lemma HelpExits(pre: seq<Flag>, post: seq<Flag>, cmd: CommandLine, host: Host, s: Settings)
    requires Help !in pre && (s.startupCommands.Some? || AutoExec !in pre)
    ensures ApplyFlags(pre + [Help] + post, cmd, host, s) == Exited(0)
  {
    RunsWithoutHelp(pre, cmd, host, s);
    assert pre + [Help] + post == pre + ([Help] + post);
    ApplyFlagsConcat(pre, [Help] + post, cmd, host, s);
  }

  /** Even from the source's start state, with no startup list, a lone
      `--help` ends the process with exit code 0. */
  lemma HelpExitsWithSourceDefaults(program: string, host: Host)
    ensures ParseArguments(CommandLine(program, ["--help"]), host, SourceDefaults) == Exited(0)
  {
    HelpSelectsPrintHelp();
    SingleArgument(program, "--help", Help, host, SourceDefaults);
  }

  /** Every argument routed to `SetAutoExec` re-reads the whole command line,
      so the list receives the full set of `--exec=` commands once per such
      argument. */
  lemma {:induction false} ExecRepeats(fs: seq<Flag>, cmd: CommandLine, host: Host, s: Settings)
    requires Help !in fs && s.startupCommands.Some?
    ensures ApplyFlags(fs, cmd, host, s).Running?
    ensures ApplyFlags(fs, cmd, host, s).settings.startupCommands
         == Some(s.startupCommands.value + Repeat(AutoExecCommands(cmd, host.trimQuotes), Count(fs, AutoExec)))
  {
    var x := AutoExecCommands(cmd, host.trimQuotes);
    if |fs| == 0 {
      assert s.startupCommands.value + Repeat(x, 0) == s.startupCommands.value;
    } else {
      assert fs == [fs[0]] + fs[1..];
      assert multiset(fs) == multiset([fs[0]]) + multiset(fs[1..]);
      var next := ApplyFlag(fs[0], cmd, host, s);
      ExecRepeats(fs[1..], cmd, host, next.settings);
      var l := s.startupCommands.value;
      var n := Count(fs[1..], AutoExec);
      if fs[0] == AutoExec {
        assert Count(fs, AutoExec) == n + 1;
        assert (l + x) + Repeat(x, n) == l + Repeat(x, n + 1);
      } else {
        assert Count(fs, AutoExec) == n;
      }
    }
  }

  // ---------------------------------------------------------------------------
  // Consequences for concrete command lines
  // ---------------------------------------------------------------------------

  /** As written, any `--exec=` argument crashes the process:
      `StartupCommands` is still null when `SetAutoExec` calls `AddRange`. */
  lemma ExecCrashesWithSourceDefaults(program: string, rest: string, host: Host)
    ensures ParseArguments(CommandLine(program, ["--exec=" + rest]), host, SourceDefaults)
         == Crashed("NullReferenceException")
  {
    ExecSelectsAutoExec(rest);
    SingleArgument(program, "--exec=" + rest, AutoExec, host, SourceDefaults);
  }

  /** One `--exec=` argument, with the list created, appends its command. */
  lemma OneExecArgument(program: string, rest: string, host: Host, s: Settings)
    requires !IsExecArgument(program) && s.startupCommands.Some?
    ensures IsExecArgument("--exec=" + rest)
    ensures ParseArguments(CommandLine(program, ["--exec=" + rest]), host, s)
         == Running(s.(startupCommands := Some(s.startupCommands.value + [ExecCommand("--exec=" + rest, host.trimQuotes)])))
  {
    var arg := "--exec=" + rest;
    ExecSelectsAutoExec(rest);
    SingleArgument(program, arg, AutoExec, host, s);
    assert IsExecArgument(arg) by { assert arg[..7] == ExecPrefix; }
    SingleExecArgument(program, arg, host.trimQuotes);
  }

  /** With the list created up front, an `--exec=` argument queues its
      command instead of crashing. */
  lemma ExecQueuesWithInitialSettings(program: string, rest: string, host: Host)
    requires !IsExecArgument(program)
    ensures ParseArguments(CommandLine(program, ["--exec=" + rest]), host, InitialSettings)
         == Running(InitialSettings.(startupCommands := Some([ExecCommand("--exec=" + rest, host.trimQuotes)])))
  {
    OneExecArgument(program, rest, host, InitialSettings);
    var queued := [ExecCommand("--exec=" + rest, host.trimQuotes)];
    assert [] + queued == queued;
  }

  /** Two arguments that each select the exec handler run it twice. */
  lemma TwoExecHandlers(a1: string, a2: string)
    requires HandlerOf(a1) == Some(AutoExec) && HandlerOf(a2) == Some(AutoExec)
    ensures |HandlersFor([a1, a2])| == 2
    ensures forall k :: 0 <= k < |HandlersFor([a1, a2])| ==> HandlersFor([a1, a2])[k] == AutoExec
  {
    assert Handled(a1) == [AutoExec] && Handled(a2) == [AutoExec];
    assert [a1, a2][1..] == [a2];
    assert [a2][1..] == [];
    assert HandlersFor([a1, a2]) == [AutoExec, AutoExec];
  }

  /** Behind a program name that is not one, two exec arguments give two
      commands, in command-line order. */
  lemma TwoExecCommands(program: string, a1: string, a2: string, host: Host)
    requires !IsExecArgument(program) && IsExecArgument(a1) && IsExecArgument(a2)
    ensures AutoExecCommands(CommandLine(program, [a1, a2]), host.trimQuotes)
         == [ExecCommand(a1, host.trimQuotes), ExecCommand(a2, host.trimQuotes)]
  {
    var cmd := CommandLine(program, [a1, a2]);
    assert cmd.All() == [program] + [a1] + [a2];
    FilterConcat([program] + [a1], [a2], IsExecArgument);
    FilterConcat([program], [a1], IsExecArgument);
    assert ExecArguments(cmd) == [a1, a2];
  }

  /** A command line whose arguments select the AutoExec handler twice queues
      its `--exec=` commands twice over: each handler run rescans the whole
      command line. */
  lemma TwoExecArguments(cmd: CommandLine, host: Host, s: Settings)
    requires |HandlersFor(cmd.args)| == 2 && s.startupCommands.Some?
    requires forall k :: 0 <= k < |HandlersFor(cmd.args)| ==> HandlersFor(cmd.args)[k] == AutoExec
    ensures var x := AutoExecCommands(cmd, host.trimQuotes);
      ParseArguments(cmd, host, s) == Running(s.(startupCommands := Some(s.startupCommands.value + x + x)))
  {
    var fs := HandlersFor(cmd.args);
    ExecTwice(fs, cmd, host, s);
  }

  /** Two runs of the exec handler queue the command line's `--exec=`
      commands twice over and change nothing else. */
  lemma ExecTwice(fs: seq<Flag>, cmd: CommandLine, host: Host, s: Settings)
    requires |fs| == 2 && (forall k :: 0 <= k < |fs| ==> fs[k] == AutoExec) && s.startupCommands.Some?
    ensures var x := AutoExecCommands(cmd, host.trimQuotes);
      ApplyFlags(fs, cmd, host, s) == Running(s.(startupCommands := Some(s.startupCommands.value + x + x)))
  {
    var x := AutoExecCommands(cmd, host.trimQuotes);
    var l := s.startupCommands.value;
    ExecRepeats(fs, cmd, host, s);
    RunsOnlyChangeFields(fs, cmd, host, s);
    CountAll(fs, AutoExec);
    RepeatTwice(x);
    assert l + (x + x) == l + x + x;
  }

  /** With the list created up front, two `--exec=` arguments queue four
      commands: the pair, twice. */
  lemma ExecTwiceQueuesBothTwice(program: string, rest1: string, rest2: string, host: Host)
    requires !IsExecArgument(program)
    ensures var both := [ExecCommand("--exec=" + rest1, host.trimQuotes), ExecCommand("--exec=" + rest2, host.trimQuotes)];
      ParseArguments(CommandLine(program, ["--exec=" + rest1, "--exec=" + rest2]), host, InitialSettings)
      == Running(InitialSettings.(startupCommands := Some(both + both)))
  {
    var a1, a2 := "--exec=" + rest1, "--exec=" + rest2;
    ExecSelectsAutoExec(rest1);
    ExecSelectsAutoExec(rest2);
    assert IsExecArgument(a1) by { assert a1[..7] == ExecPrefix; }
    assert IsExecArgument(a2) by { assert a2[..7] == ExecPrefix; }
    PairQueuedTwice(program, a1, a2, host, InitialSettings);
  }

  /** From an empty startup list, a command line of two exec arguments ends
      with exactly their two commands, queued twice over. */
  lemma PairQueuedTwice(program: string, a1: string, a2: string, host: Host, s: Settings)
    requires !IsExecArgument(program) && IsExecArgument(a1) && IsExecArgument(a2)
    requires HandlerOf(a1) == Some(AutoExec) && HandlerOf(a2) == Some(AutoExec)
    requires s.startupCommands == Some([])
    ensures var both := [ExecCommand(a1, host.trimQuotes), ExecCommand(a2, host.trimQuotes)];
      ParseArguments(CommandLine(program, [a1, a2]), host, s)
      == Running(s.(startupCommands := Some(both + both)))
  {
    var cmd := CommandLine(program, [a1, a2]);
    TwoExecHandlers(a1, a2);
    TwoExecCommands(program, a1, a2, host);
    TwoExecArguments(cmd, host, s);
    AppendToEmpty(s, AutoExecCommands(cmd, host.trimQuotes));
  }

  /** Appending to an empty startup list leaves just what was appended. */
  lemma AppendToEmpty(s: Settings, x: seq<seq<string>>)
    requires s.startupCommands == Some([])
    ensures s.(startupCommands := Some(s.startupCommands.value + x + x)) == s.(startupCommands := Some(x + x))
  {
    assert s.startupCommands.value + x + x == x + x;
  }

  /** As written, `--no-plugins` changes nothing: `AutoLoadPlugins` already
      starts out false (and no code shown reads it). */
  lemma NoPluginsIsNoOpWithSourceDefaults(program: string, host: Host)
    ensures ParseArguments(CommandLine(program, ["--no-plugins"]), host, SourceDefaults)
         == Running(SourceDefaults)
  {
    NoPluginsSelectsSetNoPlugins();
    SingleArgument(program, "--no-plugins", NoPlugins, host, SourceDefaults);
  }

  /** With loading on by default, `--no-plugins` switches it off and leaves
      every other option alone. */
  lemma NoPluginsClearsAutoLoad(program: string, host: Host)
    ensures InitialSettings.autoLoadPlugins
    ensures ParseArguments(CommandLine(program, ["--no-plugins"]), host, InitialSettings)
         == Running(InitialSettings.(autoLoadPlugins := false))
  {
    NoPluginsSelectsSetNoPlugins();
    SingleArgument(program, "--no-plugins", NoPlugins, host, InitialSettings);
  }

  /** `--log=...` selects `SetLogDir` by prefix, but `SetLogDir` looks for
      `--logdir=` and finds none, so the log directory becomes null. */
  lemma AbbreviatedLogDirClearsIt(program: string, rest: string, host: Host, s: Settings)
    requires !IsLogDirArgument(program)
    ensures ParseArguments(CommandLine(program, ["--log=" + rest]), host, s)
         == Running(s.(logDirectory := None))
  {
    var arg := "--log=" + rest;
    AbbreviationSelectsLogDir(rest);
    SingleArgument(program, arg, LogDir, host, s);
    NoLogDirArgument(program, arg);
  }

  lemma NoLogDirArgument(program: string, arg: string)
    requires !IsLogDirArgument(program)
    requires |arg| > 5 && arg[5] == '='
    ensures LogDirectoryFrom(CommandLine(program, [arg])) == None
  {
    var all := CommandLine(program, [arg]).All();
    assert !IsLogDirArgument(arg) by { assert FoldCase(arg[5]) != FoldCase(LogDirPrefix[5]); }
    assert forall j :: 0 <= j < |all| ==> !IsLogDirArgument(all[j]);
  }
}

=== FILE: text.dfy ===
/**
  The .NET `System.String` operations the host applies to input lines,
  command-line arguments and list-file lines, on `string` = `seq<char>`.
  Comparisons are ordinal; see README for the culture-sensitive overloads.
 */
module Text {
  import opened Wrappers

  // ---------------------------------------------------------------------------
  // White space and trimming
  // ---------------------------------------------------------------------------

  /** `char.IsWhiteSpace`: the Unicode space, line and paragraph separators,
      U+0009..U+000D and U+0085. */
  predicate IsWhiteSpace(c: char) {
    || c == ' '
    || ('\U{9}' <= c <= '\U{D}')
    || c == '\U{85}'
    || c == '\U{A0}'
    || c == '\U{1680}'
    || ('\U{2000}' <= c <= '\U{200A}')
    || c == '\U{2028}'
    || c == '\U{2029}'
    || c == '\U{202F}'
    || c == '\U{205F}'
    || c == '\U{3000}'
  }

  ghost predicate AllWhiteSpace(s: string) {
    forall i :: 0 <= i < |s| ==> IsWhiteSpace(s[i])
  }

  /** Removes the white space at the start of `s`: the result is the suffix
      of `s` that starts at its first non-white-space character. */
  function TrimLeading(s: string): (r: string)
    ensures |r| <= |s| && r == s[|s| - |r|..]
    ensures AllWhiteSpace(s[..|s| - |r|])
    ensures r == [] || !IsWhiteSpace(r[0])
  {
    if |s| > 0 && IsWhiteSpace(s[0]) then
      var r := TrimLeading(s[1..]);
      assert s[..|s| - |r|] == [s[0]] + s[1..][..|s| - 1 - |r|];
      r
    else s
  }

  /** Removes the white space at the end of `s`: the result is the prefix
      of `s` that ends at its last non-white-space character. */
  function TrimTrailing(s: string): (r: string)
    ensures |r| <= |s| && r == s[..|r|]
    ensures AllWhiteSpace(s[|r|..])
    ensures r == [] || !IsWhiteSpace(r[|r| - 1])
  {
    if |s| > 0 && IsWhiteSpace(s[|s| - 1]) then
      var r := TrimTrailing(s[..|s| - 1]);
      assert s[|r|..] == s[..|s| - 1][|r|..] + [s[|s| - 1]];
      r
    else s
  }

  /** `String.Trim()`: a slice of `s` that neither starts nor ends with white
      space, and that is empty exactly when `s` is all white space. */
  function Trim(s: string): (r: string)
    ensures |r| <= |s|
    ensures r == [] || (!IsWhiteSpace(r[0]) && !IsWhiteSpace(r[|r| - 1]))
    ensures r == [] <==> AllWhiteSpace(s)
  {
    var t := TrimLeading(s);
    var r := TrimTrailing(t);
    TrimBothEmpty(s[..|s| - |t|], t, r);
    r
  }

  /** Cutting white space off both ends leaves nothing exactly when there
      was nothing else. */
  lemma TrimBothEmpty(w: string, t: string, r: string)
    requires AllWhiteSpace(w)
    requires |r| <= |t| && r == t[..|r|] && AllWhiteSpace(t[|r|..])
    requires r == [] || !IsWhiteSpace(r[0])
    ensures r == [] <==> AllWhiteSpace(w + t)
  {
    if r == [] {
      assert t == t[|r|..];
    } else {
      assert (w + t)[|w|] == r[0];
    }
  }

  /** `string.IsNullOrEmpty(x.Trim())` for a non-null `x`. */
  predicate IsBlank(s: string) {
    Trim(s) == []
  }

  lemma {:induction false} TrimLeadingOfPadded(a: string, core: string)
    requires AllWhiteSpace(a)
    requires core == [] || !IsWhiteSpace(core[0])
    ensures TrimLeading(a + core) == core
  {
    if |a| > 0 {
      assert (a + core)[1..] == a[1..] + core;
      TrimLeadingOfPadded(a[1..], core);
    } else {
      assert a + core == core;
    }
  }

  lemma {:induction false} TrimTrailingOfPadded(core: string, b: string)
    requires AllWhiteSpace(b)
    requires core == [] || !IsWhiteSpace(core[|core| - 1])
    ensures TrimTrailing(core + b) == core
  {
    if |b| > 0 {
      assert (core + b)[..|core + b| - 1] == core + b[..|b| - 1];
      TrimTrailingOfPadded(core, b[..|b| - 1]);
    } else {
      assert core + b == core;
    }
  }

  /** Trimming removes exactly the white-space padding around a text whose
      ends are not white space: together with the ends stated by `Trim`
      this pins its result down for every input. */
  lemma TrimOfPadded(a: string, core: string, b: string)
    requires AllWhiteSpace(a) && AllWhiteSpace(b)
    requires core == [] || (!IsWhiteSpace(core[0]) && !IsWhiteSpace(core[|core| - 1]))
    ensures Trim(a + core + b) == core
  {
    if core == [] {
      assert a + core + b == a + b;
      assert AllWhiteSpace(a + b);
    } else {
      assert a + core + b == a + (core + b);
      TrimLeadingOfPadded(a, core + b);
      TrimTrailingOfPadded(core, b);
    }
  }

  /** Trimming twice is trimming once. */
  lemma TrimIdempotent(s: string)
    ensures Trim(Trim(s)) == Trim(s)
  {
    var t := Trim(s);
    assert [] + t + [] == t;
    TrimOfPadded([], t, []);
  }

  /** `s.TrimStart(c)`: every leading copy of `c` removed, not just one. */
  function TrimStartChar(s: string, c: char): (r: string)
    ensures |r| <= |s| && r == s[|s| - |r|..]
    ensures forall i :: 0 <= i < |s| - |r| ==> s[i] == c
    ensures r == [] || r[0] != c
  {
    if |s| > 0 && s[0] == c then TrimStartChar(s[1..], c) else s
  }

  // ---------------------------------------------------------------------------
  // Prefixes
  // ---------------------------------------------------------------------------

  /** `s.StartsWith(p)` compared ordinally. */
  predicate StartsWith(s: string, p: string) {
    |p| <= |s| && s[..|p|] == p
  }

  /** Invariant case folding, restricted to the ASCII letters. */
  function FoldCase(c: char): char {
    if 'A' <= c <= 'Z' then (c as int - 'A' as int + 'a' as int) as char else c
  }

  /** `s.StartsWith(p, StringComparison.InvariantCultureIgnoreCase)`. */
  predicate StartsWithIgnoreCase(s: string, p: string) {
    |p| <= |s| && forall i :: 0 <= i < |p| ==> FoldCase(s[i]) == FoldCase(p[i])
  }

  // ---------------------------------------------------------------------------
  // Searching
  // ---------------------------------------------------------------------------

  /** `d` occurs in `s` starting at position `j`. */
  predicate OccursAt(s: string, d: string, j: nat) {
    j + |d| <= |s| && s[j..j + |d|] == d
  }

  ghost predicate Occurs(s: string, d: string) {
    exists j: nat :: OccursAt(s, d, j)
  }

  /** The leftmost occurrence of `d` in `s` at or after position `k`. */
  function IndexOfFrom(s: string, d: string, k: nat): (r: Option<nat>)
    requires k <= |s|
    ensures r.Some? ==> k <= r.value && OccursAt(s, d, r.value)
    ensures r.Some? ==> forall j: nat :: k <= j < r.value ==> !OccursAt(s, d, j)
    ensures r.None? ==> forall j: nat :: k <= j ==> !OccursAt(s, d, j)
    decreases |s| - k
  {
    if k + |d| > |s| then None
    else if s[k..k + |d|] == d then Some(k)
    else IndexOfFrom(s, d, k + 1)
  }

  /** `s.IndexOf(d)`: the leftmost occurrence of `d` in `s`, if any. */
  function IndexOf(s: string, d: string): (r: Option<nat>)
    ensures r.Some? ==> OccursAt(s, d, r.value)
    ensures r.Some? ==> forall j: nat :: j < r.value ==> !OccursAt(s, d, j)
    ensures r.None? <==> !Occurs(s, d)
  {
    IndexOfFrom(s, d, 0)
  }

  // ---------------------------------------------------------------------------
  // Splitting, joining, replacing
  // ---------------------------------------------------------------------------

  /** Splits `s` at every leftmost non-overlapping occurrence of `d`, as
      `string.Split` and `Regex.Split` with a literal pattern do. Empty
      pieces are kept; there is always at least one piece. */
  function Split(s: string, d: string): (r: seq<string>)
    requires |d| > 0
    ensures |r| >= 1
    decreases |s|
  {
    match IndexOf(s, d)
    case None => [s]
    case Some(i) => [s[..i]] + Split(s[i + |d|..], d)
  }

  /** `string.Join(d, pieces)`. */
  function Join(pieces: seq<string>, d: string): string {
    if |pieces| == 0 then []
    else if |pieces| == 1 then pieces[0]
    else pieces[0] + d + Join(pieces[1..], d)
  }

  /** The last piece of a non-empty split. */
  function Last(pieces: seq<string>): string
    requires |pieces| > 0
  {
    pieces[|pieces| - 1]
  }

  /** `pieces` is the leftmost split of `s` at `d`: joining them with `d`
      gives back `s`, no piece before a delimiter contains an occurrence of
      `d` that starts before that delimiter, and the last piece contains no
      `d` at all. */
  ghost predicate IsLeftmostSplit(pieces: seq<string>, s: string, d: string)
    requires |d| > 0
  {
    && |pieces| >= 1
    && Join(pieces, d) == s
    && (forall k :: 0 <= k < |pieces| - 1 ==> !Occurs(pieces[k] + d[..|d| - 1], d))
    && !Occurs(Last(pieces), d)
  }

  /** Occurrences inside a prefix are occurrences inside the whole. */
  lemma OccursInPrefix(s: string, n: nat, d: string, j: nat)
    requires n <= |s|
    requires OccursAt(s[..n], d, j)
    ensures OccursAt(s, d, j)
  {
    assert s[..n][j..j + |d|] == s[j..j + |d|];
  }

  /** An occurrence starting before position `n` that ends by `n` is one of `s[..n]`. */
  lemma OccursInWhole(s: string, n: nat, d: string, j: nat)
    requires n <= |s|
    requires OccursAt(s, d, j) && j + |d| <= n
    ensures OccursAt(s[..n], d, j)
  {
    assert s[..n][j..j + |d|] == s[j..j + |d|];
  }

  /** Splitting a text at its first delimiter: the part before it is the first
      piece and the rest is split on its own. */
  lemma SplitAtFirst(a: string, d: string, b: string)
    requires |d| > 0
    requires !Occurs(a + d[..|d| - 1], d)
    ensures Split(a + d + b, d) == [a] + Split(b, d)
  {
    var s := a + d + b;
    var n := |a| + |d| - 1;
    assert s[..n] == a + d[..|d| - 1];
    assert OccursAt(s, d, |a|) by { assert s[|a|..|a| + |d|] == d; }
    forall j: nat | j < |a|
      ensures !OccursAt(s, d, j)
    {
      if OccursAt(s, d, j) {
        OccursInWhole(s, n, d, j);
      }
    }
    assert IndexOf(s, d) == Some(|a|);
    assert s[..|a|] == a;
    assert s[|a| + |d|..] == b;
  }

  /** The text before the leftmost occurrence has no earlier occurrence,
      even one overlapping the delimiter itself. */
  lemma BeforeFirstFree(s: string, d: string, i: nat)
    requires |d| > 0
    requires IndexOf(s, d) == Some(i)
    ensures !Occurs(s[..i] + d[..|d| - 1], d)
  {
    var n := i + |d| - 1;
    assert s[..n] == s[..i] + d[..|d| - 1] by {
      assert s[i..i + |d|] == d;
    }
    if Occurs(s[..n], d) {
      var j: nat :| OccursAt(s[..n], d, j);
      OccursInPrefix(s, n, d, j);
    }
  }

  /** A text is its part before an occurrence, the occurrence, and the rest. */
  lemma CutAt(s: string, d: string, i: nat)
    requires OccursAt(s, d, i)
    ensures s == s[..i] + d + s[i + |d|..]
  {
    assert s == s[..i] + s[i..i + |d|] + s[i + |d|..];
  }

  /** `Split` returns the leftmost split. */
  lemma {:induction false} SplitIsLeftmost(s: string, d: string)
    requires |d| > 0
    ensures IsLeftmostSplit(Split(s, d), s, d)
    decreases |s|
  {
    match IndexOf(s, d)
    case None =>
    case Some(i) =>
      var b := s[i + |d|..];
      SplitIsLeftmost(b, d);
      var p := Split(s, d);
      assert p[1..] == Split(b, d);
      CutAt(s, d, i);
      BeforeFirstFree(s, d, i);
  }

  /** The leftmost split is unique: any sequence of pieces with the leftmost
      property is the one `Split` returns. */
  lemma {:induction false} LeftmostSplitUnique(pieces: seq<string>, s: string, d: string)
    requires |d| > 0
    requires IsLeftmostSplit(pieces, s, d)
    ensures pieces == Split(s, d)
    decreases |pieces|
  {
    if |pieces| == 1 {
      assert s == pieces[0];
    } else {
      var rest := Join(pieces[1..], d);
      assert s == pieces[0] + d + rest;
      assert IsLeftmostSplit(pieces[1..], rest, d) by {
        assert Last(pieces[1..]) == Last(pieces);
        forall k | 0 <= k < |pieces[1..]| - 1
          ensures !Occurs(pieces[1..][k] + d[..|d| - 1], d)
        {
          assert pieces[1..][k] == pieces[k + 1];
        }
      }
      LeftmostSplitUnique(pieces[1..], rest, d);
      SplitAtFirst(pieces[0], d, rest);
      assert pieces == [pieces[0]] + pieces[1..];
    }
  }

  /** Joining the pieces of a split with its delimiter gives back the text. */
  lemma SplitJoin(s: string, d: string)
    requires |d| > 0
    ensures Join(Split(s, d), d) == s
  {
    SplitIsLeftmost(s, d);
  }

  /** No piece of a split contains the delimiter. */
  lemma SplitPiecesFree(s: string, d: string)
    requires |d| > 0
    ensures forall k :: 0 <= k < |Split(s, d)| ==> !Occurs(Split(s, d)[k], d)
  {
    var p := Split(s, d);
    SplitIsLeftmost(s, d);
    forall k | 0 <= k < |p|
      ensures !Occurs(p[k], d)
    {
      if k < |p| - 1 && Occurs(p[k], d) {
        var j: nat :| OccursAt(p[k], d, j);
        assert (p[k] + d[..|d| - 1])[..|p[k]|] == p[k];
        OccursInPrefix(p[k] + d[..|d| - 1], |p[k]|, d, j);
      }
    }
  }

  /** A text that lacks the delimiter's first character cannot contain it. */
  lemma AbsentFirstChar(s: string, d: string)
    requires |d| > 0 && d[0] !in s
    ensures !Occurs(s, d)
  {
    forall j: nat
      ensures !OccursAt(s, d, j)
    {
      if j + |d| <= |s| {
        assert s[j..j + |d|][0] == s[j];
      }
    }
  }

  /** A text without the delimiter is a single piece. */
  lemma SplitAbsent(s: string, d: string)
    requires |d| > 0
    requires !Occurs(s, d)
    ensures Split(s, d) == [s]
  {
  }

  /** `"a  b".Split(' ')` keeps the empty text between the two spaces. */
  lemma SplitDoubleSpace()
    ensures Split("a  b", " ") == ["a", "", "b"]
  {
    var sp := " ";
    AbsentFirstChar("b", sp);
    SplitAbsent("b", sp);
    var last := Split("b", sp);
    AbsentFirstChar("", sp);
    assert "" + sp[..0] == "";
    SplitAtFirst("", sp, "b");
    assert "" + sp + "b" == " b";
    var middle := Split(" b", sp);
    assert middle == [""] + last;
    AbsentFirstChar("a", sp);
    assert "a" + sp[..0] == "a";
    SplitAtFirst("a", sp, " b");
    assert "a" + sp + " b" == "a  b";
    assert Split("a  b", sp) == ["a"] + middle;
  }

  /** `s.Replace(pat, rep)`: every leftmost non-overlapping occurrence of
      `pat` replaced by `rep`. */
  function Replace(s: string, pat: string, rep: string): (r: string)
    requires |pat| > 0
    ensures !Occurs(s, pat) ==> r == s
  {
    Join(Split(s, pat), rep)
  }

  /** Replacing a pattern by itself changes nothing. */
  lemma ReplaceSelf(s: string, pat: string)
    requires |pat| > 0
    ensures Replace(s, pat, pat) == s
  {
    SplitJoin(s, pat);
  }

  /** The first occurrence is replaced and the rest of the text is processed
      on its own. */
  lemma ReplaceFirst(a: string, pat: string, b: string, rep: string)
    requires |pat| > 0
    requires !Occurs(a + pat[..|pat| - 1], pat)
    ensures Replace(a + pat + b, pat, rep) == a + rep + Replace(b, pat, rep)
  {
    SplitAtFirst(a, pat, b);
    var p := Split(a + pat + b, pat);
    assert p[1..] == Split(b, pat);
  }

  /** A one-character delimiter occurs exactly where that character stands. */
  lemma OccursSingle(s: string, c: char)
    ensures forall j: nat :: OccursAt(s, [c], j) <==> j < |s| && s[j] == c
  {
    forall j: nat | j < |s|
      ensures OccursAt(s, [c], j) <==> s[j] == c
    {
      assert s[j..j + 1] == [s[j]];
    }
  }

  /** `s.Substring(s.IndexOf(c) + 1)`: the text after the first `c`; the
      whole text when there is none (`IndexOf` returns -1). */
  function AfterFirst(s: string, c: char): (r: string)
    ensures |r| <= |s| && r == s[|s| - |r|..]
    ensures c in s ==> |s| - |r| >= 1 && s[|s| - |r| - 1] == c && c !in s[..|s| - |r| - 1]
    ensures c !in s ==> r == s
  {
    OccursSingle(s, c);
    match IndexOf(s, [c])
    case None => s
    case Some(i) => s[i + 1..]
  }
}

=== FILE: wrappers.dfy ===
/** Optional values: the model's stand-in for C# `null` results. */
module Wrappers {

  datatype Option<+T> = None | Some(value: T)
}
